=== FILE: README.md ===
# sogeBot core, modelled in Dafny

This project models three parts of sogeBot, a Twitch chat bot. Each part is
written as pure functions over explicit state, and the properties are proved.

1. **The master-side database broker** (`libs/databases/master.js`).
   - The master process keeps a table of worker replies, keyed by correlation
     id (`data`).
   - A message handler files each reply as it arrives.
   - A `cleanup` pass drops finished or stale entries.
   - `connect` sets `connected` once every worker is online.
   - The seven facade operations (`find`, `findOne`, `insert`, `remove`,
     `update`, `incrementOne`, `increment`) send an envelope to a worker and
     wait for the reply in one shared polling loop. The loop re-sends on a
     linear schedule and gives up with `[]` after 30 seconds.
   - Time is a discrete clock in milliseconds. Each reply, sweep and poll is
     one atomic step, so the callbacks become a state machine:
     - `WaitLoop` runs one call against the table.
     - `Controller` runs the whole broker, with many calls in flight and the
       readiness gate.
2. **Duration formatting** (`src/bot/helpers/getTime.ts`).
   - The input is the `{days, hours, minutes, seconds}` record.
   - Chat mode produces a record in which non-positive fields are blank.
   - Clock mode produces the zero-padded `[Nd]HH:MM:SS` text. A parser for
     that text gives the round trip.
3. **Moderation rules** (`src/bot/systems/moderation.ts`).
   - Warning escalation in `timeoutUser` and its one-minute announcement
     cooldown `isSilent`.
   - The `!permit` command and the permit branch of the link check.
   - The long-message, emote and blacklist checks, with the exemption guard
     they share.
   - The `lists.set` sanitiser.
   - The database tables (warnings, permits, cooldowns) are one explicit
     state value.
   - Pattern matching (links, emoji, blacklist patterns) comes in as an
     input: a flag, a count or a predicate. A blacklist pattern may also fail
     to compile, which makes the blacklist check throw.

Modules:
- `Optional` and `Text`: shared helpers — JS whitespace and `trim`, string
  length in UTF-16 code units, decimal rendering and parsing, and `split`.
- `Envelopes`, `ResultTable`, `WaitLoop`, `WaitScenarios`, `Readiness` and
  `Controller`: the broker.
- `GetTime`: duration formatting.
- `Moderation` and `PermitCommand`: the moderation rules.

Where the code and the documented intent differ, the model follows the code:
- A reply overwrites any existing entry for its id. It does not create the
  entry only when none is present.
- All the broker's times are milliseconds: 4000 per retry step, a 30000
  give-up, 10000 retention.
- The retry test comes before the give-up test (an `else if`). So a poll
  after 30 s still re-sends while fewer than five sends have gone out, and
  the give-up can come later than 30 s. `WaitLoop.BoundedWait` bounds how
  much later.
- A poll that gives up with `[]` still marks a present entry finished. The
  loop keeps polling after a timeout, and the first resolution wins.

## Model

| member | source | states |
|---|---|---|
| Envelopes.KindOfName | libs/databases/master.js:54 | an `fnc` string that a worker reads as an operation is that operation's name |
| Envelopes.FncNameRoundTrip | libs/databases/master.js:54 | each operation's `fnc` name reads back as that operation, so the seven names are distinct |
| Envelopes.MakeEnvelope | libs/databases/master.js:52-55 | the envelope has `type` `db`, the call's id and table, and `fnc` the operation name; it carries `where` exactly when the operation is not `insert`, and `object` exactly for insert, update, incrementOne and increment |
| Envelopes.EnvelopeRoundTrip | libs/databases/master.js:170-172 | a worker reading an envelope recovers exactly the request it was built from |
| Envelopes.EnvelopeInjective | libs/databases/master.js:53-54 | two envelopes are equal exactly when both the requests and the correlation ids are equal |
| ResultTable.Ingest | libs/databases/master.js:13-20 | a reply sets `data[id]` to its items, stamped now and unfinished, replacing any earlier entry; every other id is unchanged |
| ResultTable.Sweep | libs/databases/master.js:29-34 | a sweep keeps exactly the entries that are unfinished and at most 10000 ms old, and leaves them unchanged |
| ResultTable.SweepKeepsLive | libs/databases/master.js:32-34 | an unfinished entry aged at most 10000 ms survives a sweep unchanged |
| ResultTable.SweepIdempotent | libs/databases/master.js:32-34 | a second sweep at the same time removes nothing more |
| ResultTable.SweepLater | libs/databases/master.js:32-34 | a sweep followed by a later sweep is the same as the later sweep alone |
| ResultTable.MarkFinished | libs/databases/master.js:72-73 | reading a result flags only that entry finished; the keys and every other entry stay as they were |
| ResultTable.FinishedIsSwept | libs/databases/master.js:33 | a finished entry is gone after the next sweep, whatever its age |
| WaitLoop.Begin | libs/databases/master.js:52-59 | a facade call sends its envelope once, starts with `retries` 1 and no result, and is polling |
| WaitLoop.Settle | libs/databases/master.js:67-74 | resolving a promise that has already settled keeps the first value |
| WaitLoop.Tick | libs/databases/master.js:60-75 | one poll re-sends the same envelope exactly when `now - start > 4000 * retries` and `retries < 5`; otherwise it gives up with `[]` after 30000 ms; it then marks the call's own entry finished and resolves with its items if present; polling stops exactly when the entry is present; the call's invariant is kept and no other entry changes |
| WaitLoop.TickIsolated | libs/databases/master.js:70-73 | what a poll does to a call depends on the table only through the entry under the call's own id |
| WaitLoop.Apply | libs/databases/master.js:13-34 | replies and cleanup passes never change a call in flight |
| WaitLoop.RunValid | libs/databases/master.js:59-64 | over any sequence of replies, sweeps and polls, a call keeps its invariant, sends the same envelope, only appends sends, and sends at most five times |
| WaitLoop.RunKeepsResult | libs/databases/master.js:67-74 | once resolved, a call's result never changes |
| WaitLoop.BoundedWait | libs/databases/master.js:61-68 | whatever the workers and the table do, a call has resolved after `6 - retries` polls past its 30000 ms deadline |
| WaitLoop.TimeoutAfterLastRetry | libs/databases/master.js:61-68 | once five sends have gone out, the first poll past 30000 ms resolves the call, with `[]` if nothing resolved it before |
| WaitLoop.IdlePolls | libs/databases/master.js:60-75 | polls at which no re-send is due, no timeout is new and no entry is present change nothing |
| WaitScenarios.ReplyBeforeFirstRetry | libs/databases/master.js:52-78 | a reply 50 ms after the start resolves the call with its items after one send, and leaves the entry finished |
| WaitScenarios.NoReplyGivesUp | libs/databases/master.js:52-78 | with no reply, polling every millisecond re-sends at +4001, +8001, +12001 and +16001 ms, then resolves with `[]` at +30001 ms, having sent five times |
| WaitScenarios.ReplyAfterOneRetry | libs/databases/master.js:52-78 | a reply 4500 ms after the start resolves the call with its items after one re-send at +4001 ms |
| WaitScenarios.OtherReplyDoesNotResolve | libs/databases/master.js:70-75 | a reply for another id leaves a waiting call unresolved and polling; its own reply then resolves it |
| Readiness.CheckWorkers | libs/databases/master.js:44-47 | the loop's flag is true exactly when every worker's state is `online` |
| Readiness.Init | libs/databases/master.js:22-49 | after construction `connected` is false, and setting it is pending exactly when all workers were online |
| Readiness.Connect | libs/databases/master.js:43-50 | `connect` schedules setting `connected` when all workers are online, and otherwise schedules itself again |
| Readiness.Fire | libs/databases/master.js:48-49 | `connected` is never reset, becomes true only through the scheduled setter, and a scheduled re-check runs `connect` again |
| Readiness.ConnectedOnlyAfterAllOnline | libs/databases/master.js:44-49 | `connected` is set or pending only if some check saw every worker online |
| Readiness.NotOnlineKeepsChecking | libs/databases/master.js:49 | while no check sees all workers online, `connected` stays false and a re-check stays pending |
| Readiness.OnlineThenConnected | libs/databases/master.js:48 | a re-check that sees all workers online is followed by `connected` on the next firing |
| Controller.New | libs/databases/master.js:10-27 | a new controller has an empty table, no calls in flight and is not connected |
| Controller.Next | libs/databases/master.js:13-78 | every step keeps every call valid and filed under its own id; only the gate's timer touches the gate; replies and sweeps leave the calls alone; polling one call leaves every other call and entry unchanged |
| Controller.ReplyIsolation | libs/databases/master.js:70-75 | a reply for another id has no effect on a call: its next poll gives the same call with or without the reply, on every path including the timeout; so a waiting call that is not timed out stays unresolved and polling |
| GetTime.Elapsed | src/bot/helpers/getTime.ts:9-11 | a null or zero time gives the all-zero duration, and any other time gives the measured difference |
| GetTime.Chat | src/bot/helpers/getTime.ts:12-24 | each chat field is shown exactly when its value is positive, and then holds that value; seconds shows 1 when nothing else would show, so the record is never all blank |
| GetTime.ChatRoundTrip | src/bot/helpers/getTime.ts:13-20 | reading a chat record back gives the duration, except that the zero duration reads as one second |
| GetTime.Format | src/bot/helpers/getTime.ts:4-31 | chat mode returns the chat record of the elapsed duration, and clock mode returns the clock text of the elapsed duration (the text ClockRoundTrip and SmallFieldsPadded describe); a null or zero time gives one second in chat mode and `00:00:00` in clock mode |
| GetTime.Pad2Digits | src/bot/helpers/getTime.ts:27-29 | a non-negative field prints as at least two digits that read back as its value |
| GetTime.ClockParts | src/bot/helpers/getTime.ts:27-30 | the clock text splits at `:` into the days-and-hours part, the minutes and the seconds |
| GetTime.ClockRoundTrip | src/bot/helpers/getTime.ts:25-30 | the clock text `Clock` (the whole non-chat branch: optional `Nd`, then padded hours, minutes and seconds joined by `:`) of a non-negative duration parses back as that duration |
| GetTime.DaysShownIffPositive | src/bot/helpers/getTime.ts:26 | the clock text contains `d` exactly when there is at least one day |
| GetTime.Pad2Shape | src/bot/helpers/getTime.ts:27-29 | a field below ten prints as `0` and its digit, and a field prints with a leading `0` exactly when it is below ten |
| GetTime.SmallFieldsPadded | src/bot/helpers/getTime.ts:27-30 | for any non-negative duration, each of hours, minutes and seconds independently gets a leading `0` exactly when it is below ten; the text splits at `:` into three parts, so hours and minutes are each followed by `:` |
| Text.Trim | src/bot/systems/moderation.ts:330 | JS `trim`: the result is a slice of the input with only white space before and after it, and it neither starts nor ends with white space |
| Text.TrimEmptyIffAllWhite | src/bot/systems/moderation.ts:117 | a string trims to nothing exactly when it is all JS white space |
| Moderation.Purge | src/bot/systems/moderation.ts:124-126 | a warning survives the purge exactly when it is from the last hour |
| Moderation.PurgeAppend | src/bot/systems/moderation.ts:124-126 | the purge works warning by warning, keeping a live warning and dropping an old one; so copies and order of the live warnings are kept |
| Moderation.PurgeAllLive | src/bot/systems/moderation.ts:124-126 | purging warnings that are all from the last hour changes nothing |
| Moderation.OfUser | src/bot/systems/moderation.ts:127 | the user's warnings are exactly the warnings with the user's id |
| Moderation.WithoutUser | src/bot/systems/moderation.ts:144 | a warning survives deleting a user's warnings exactly when it belongs to another user |
| Moderation.WithoutUserAppend | src/bot/systems/moderation.ts:144 | the deletion works warning by warning, so other users' warnings keep their copies and order |
| Moderation.OfUserWithout | src/bot/systems/moderation.ts:144 | deleting one user's warnings leaves every other user's warnings exactly as they were |
| Moderation.WithoutUserHasNone | src/bot/systems/moderation.ts:144 | after the deletion the user has no warnings |
| Moderation.OfUserAppend | src/bot/systems/moderation.ts:146 | a warning appended for the user is the user's newest warning; one for another user leaves the user's warnings alone |
| Moderation.IsSilent | src/bot/systems/moderation.ts:509-518 | not silent, stamping the cooldown with now, exactly when there is no record or the last one is at least 60000 ms old; otherwise silent with the record unchanged |
| Moderation.CooldownWindow | src/bot/systems/moderation.ts:509-518 | after an announcement, the same kind is silent exactly for the next 60000 ms, and other kinds are unaffected |
| Moderation.TimeoutUser | src/bot/systems/moderation.ts:122-163 | with no warnings allowed: a timeout with `$count` -1 and nothing stored; at or above the allowed count: a timeout with the remaining count and the user's warnings deleted; otherwise one warning added with `allowed - count >= 1` left, chat cleared as configured, and a reply exactly when announcing is on and the cooldown allows it; permits untouched |
| Moderation.TimeoutUserFrame | src/bot/systems/moderation.ts:124-146 | only warnings from the last hour remain; every other user keeps exactly their live warnings, copies and order included; a user never holds more than the allowed number |
| Moderation.WarnStep | src/bot/systems/moderation.ts:145-148 | below the allowed count, one offence adds exactly one live warning and reports `allowed - count` left |
| Moderation.RepeatWarns | src/bot/systems/moderation.ts:139-148 | from no warnings, `n <= allowed` offences leave `n` warnings and report `allowed, allowed-1, …` warnings left |
| Moderation.Escalation | src/bot/systems/moderation.ts:139-148 | from no warnings, `allowed` offences are warned, the next is a timeout with count 0, and the user's warnings are then gone |
| Moderation.ExemptGuard | src/bot/systems/moderation.ts:324-326 | the shared guard `Exempt` (no permission group, the check disabled for the group, or the casters group) is exactly what passes a message unchecked: an exempt sender passes the link, long-message and emote checks with the state untouched, and with a zero trigger the long-message check passes no one else |
| Moderation.ContainsLink | src/bot/systems/moderation.ts:246-273 | an exempt sender passes; a message with a link fails exactly when the sender has no permit, and then `timeoutUser` runs with kind `links`; otherwise it passes, using up one permit when it has a link |
| Text.Utf16Length | src/bot/systems/moderation.ts:330 | JS string length counts UTF-16 code units: between one and two per character |
| Moderation.LongMessage | src/bot/systems/moderation.ts:317-340 | an exempt sender passes; otherwise the message fails, with `timeoutUser` of kind `longmessage`, exactly when its trimmed length in UTF-16 code units reaches the trigger |
| Moderation.EmojiMessageIsLong | src/bot/systems/moderation.ts:330-338 | a message of `k` emoji from a sender who is not exempt fails exactly when `2 * k` reaches the trigger |
| Moderation.LongMessageIgnoresPadding | src/bot/systems/moderation.ts:330 | white space around a message never changes the long-message verdict |
| Moderation.Emotes | src/bot/systems/moderation.ts:446-479 | a message without an emote list, or from an exempt sender, passes; otherwise it fails, with `timeoutUser` of kind `emotes`, exactly when emotes plus (when enabled) emoji exceed the maximum |
| Moderation.EmotesMonotone | src/bot/systems/moderation.ts:462-470 | a message with more emotes than one that fails also fails |
| Moderation.ScanList | src/bot/systems/moderation.ts:491-505 | the loop walks the trimmed patterns in order, skipping empty ones, and ends clean when none matches or throws, or else at the first pattern that matches or whose compilation throws |
| Moderation.FirstHit | src/bot/systems/moderation.ts:491-505 | the `for` loop with its `break` ends exactly as that scan does, at the same pattern |
| Moderation.CompiledScan | src/bot/systems/moderation.ts:491-505 | when every pattern compiles, the loop never throws, and it matches exactly when some non-empty trimmed entry occurs in the message |
| Moderation.OrderMatters | src/bot/systems/moderation.ts:494-502 | for a pattern that does not compile and one that matches, the loop throws when the broken one comes first and matches when the matching one comes first |
| Moderation.Blacklist | src/bot/systems/moderation.ts:481-507 | an exempt sender passes; otherwise the parser throws with nothing changed exactly when the scan stops at a pattern that does not compile, fails the message exactly when the scan stops at a match, and then runs `timeoutUser` once with kind `blacklist`, and passes otherwise |
| Moderation.HitByMember | src/bot/systems/moderation.ts:492-496 | whether some entry matches depends only on which entries are in the list, not on their positions; with every pattern compiling (CompiledScan) this is the loop's verdict |
| Moderation.Sanitize | src/bot/systems/moderation.ts:117-118 | the sanitised list holds exactly the entries that are non-empty once trimmed |
| Moderation.SanitizeAppend | src/bot/systems/moderation.ts:117-118 | sanitising respects concatenation, so kept entries stay in their order |
| Moderation.SanitizeIdempotent | src/bot/systems/moderation.ts:117-118 | sanitising a sanitised list changes nothing |
| Moderation.SanitizeKeepsBlacklist | src/bot/systems/moderation.ts:491-496 | sanitising the blacklist never changes whether some entry matches a message |
| Moderation.SanitizeKeepsScan | src/bot/systems/moderation.ts:116-118 | sanitising the blacklist never changes how the loop ends on a message: clean, at a match, or at a throw |
| Moderation.SetLists | src/bot/systems/moderation.ts:116-119 | both stored lists keep exactly the entries that are non-empty once trimmed, and they are the sanitised lists, so order is kept |
| PermitCommand.MatchSound | src/bot/systems/moderation.ts:225 | an accepted parameter is an optional `@`, the captured name (non-empty, no white space), an optional space and the captured digits |
| PermitCommand.MatchComplete | src/bot/systems/moderation.ts:225 | every parameter of that shape is accepted |
| PermitCommand.MatchPermit | src/bot/systems/moderation.ts:225 | the pattern `^@?([\S]+) ?(\d+)?$`: a captured name is non-empty without white space, and a captured count is one or more digits, so it reads as a number; MatchSound and MatchComplete pin down exactly what it accepts |
| PermitCommand.Lower | src/bot/systems/moderation.ts:234 | the lower-cased name has the same length, with each ASCII capital replaced by its small letter |
| PermitCommand.PermitLink | src/bot/systems/moderation.ts:223-243 | every throw ends in the parse-failed reply: an unparsable parameter or a failed user lookup inserts nothing, and an insert that throws keeps the permits inserted before it; otherwise exactly `count` permits (1 when no count is given) are added for the named user and the reply names the lower-cased user and the count |
| PermitCommand.ConsumeOne | src/bot/systems/moderation.ts:259-262 | with a permit and a link, the message passes and exactly one permit is used up |
| PermitCommand.PermitsConsumed | src/bot/systems/moderation.ts:258-269 | after `n` permits are granted to a user with none, exactly `n` of that user's link messages pass and the next one fails |

## Left out

- The cluster transport is not modelled: `send`, `cluster.on('message')` and worker processes. Sends are recorded as data, and replies arrive as events.
- The throw when the worker pool is empty (`_.sample` gives `undefined`) is not modelled. A send's worker is an arbitrary input.
- Correlation ids are not generated. They come from the caller and are fresh, as 64 random bytes make them in practice.
- The 5000 ms `connect` delay, its 10 ms re-check delay and `cleanup`'s 1 ms reschedule are not modelled as timers. The gate fires as a step, and sweeps and polls are events at any times the caller picks.
- `cleanup` takes a fresh `_.now()` for each entry; the model uses one `now` per pass. The pass's `try`/`catch` is not modelled, because nothing in it throws on the modelled data.
- The model has no debug logging or `util.inspect`. `libs/databases/interface.js` is not part of this model.
- `moment.preciseDiff` is a duration input. A `NaN` time and JS number rendering of non-integers are not modelled.
- Link detection, the whitelist and clip/song-request regexes and emoji counting are inputs: a flag and a count. XRegExp blacklist patterns are an input too. For each trimmed entry it says whether the pattern compiles and, if it does, whether it matches. The `*`/`+` rewriting and the pattern syntax are not modelled.
- What happens after the blacklist parser throws is not modelled. The model returns no verdict and leaves the state unchanged.
- The `symbols`, `caps`, `spam` and `color` checks are not modelled. They lie outside the modelled rules.
- Message templating is not modelled: `Message.parse`, `translate`, `prepare`, `getLocalizedName`. The I/O calls `timeout`, `timeoutLog`, `warningLog`, `parserReply` and `clusteredClientDelete` are not modelled either. A sanction records which template and count would be used, and whether a reply goes out.
- The parsers do not await `timeoutUser`. The model applies its effect before the verdict is returned.
- `users.getIdByName` and `permissions.getUserHighestPermission` are inputs: a function that may fail, and a value. Which permit insert throws, if any, is an input too. The permission settings lookups are total functions.
- The `!permit` command's own permission requirement is not modelled; it is the command framework's job.
- The `lists.get` endpoint is not modelled. It only returns the stored lists.
- PermitCommand.Lower: lower-cases ASCII letters only. JS `toLowerCase` also maps other Unicode capitals.
- PermitCommand.PermitLink: the count is the exact decimal value. `parseInt` loses precision above 2^53, and that is not modelled.
- `src/bot/overlays/eventlist.ts`, `src/panel/helpers/isUserLoggedIn.ts` and `libs/widgets/bets.js` are callers. They are not modelled.

=== FILE: controller.dfy ===
/**
 The master controller as one state machine: the result table `data`, the
 facade calls in flight (keyed by correlation id), and the readiness gate.
 Each event is one atomic step. Starting a call does not consult the gate:
 operations go out whether or not `connected` is set.
 */
module Controller {
  import opened Envelopes
  import opened ResultTable
  import opened WaitLoop
  import opened Readiness

  datatype Controller = Controller(data: Table, calls: map<Id, Call>, gate: Gate)

  datatype Step =
    | StartCall(req: Request, id: Id, at: int, worker: WorkerId)
    | WorkerReply(id: Id, items: Items, at: int)
    | CleanupPass(at: int)
    | PollCall(id: Id, at: int, worker: WorkerId)
    | GateTimer(workers: seq<WorkerState>)

  /** Every call is valid and filed under its own correlation id. */
  predicate Inv(c: Controller) {
    forall id :: id in c.calls ==> Valid(c.calls[id]) && c.calls[id].Id() == id
  }

  /** The constructor: empty table, no calls, `connect` run once. */
  function New(workers: seq<WorkerState>): (c: Controller)
    ensures Inv(c) && c.data == map[] && c.calls == map[] && !c.gate.connected
  {
    Controller(map[], map[], Init(workers))
  }

  /** A step is possible when a new call's id is fresh and a polled call exists. */
  predicate Enabled(c: Controller, s: Step) {
    match s
    case StartCall(_, id, _, _) => id !in c.calls && id !in c.data
    case PollCall(id, _, _) => id in c.calls
    case _ => true
  }

  function Next(c: Controller, s: Step): (c': Controller)
    requires Enabled(c, s)
    ensures Inv(c) ==> Inv(c')
    // the gate only moves on its own timer, and no other step reads it
    ensures !s.GateTimer? ==> c'.gate == c.gate
    ensures s.GateTimer? ==> c'.data == c.data && c'.calls == c.calls
    // replies and cleanup never touch a call
    ensures s.WorkerReply? || s.CleanupPass? ==> c'.calls == c.calls
    // polling one call leaves every other call, and every other entry, as it was
    ensures Inv(c) && s.PollCall? ==>
      && c'.calls.Keys == c.calls.Keys
      && (forall k :: k in c.calls && k != s.id ==> c'.calls[k] == c.calls[k])
      && c'.data.Keys == c.data.Keys
      && (forall k :: k in c.data && k != s.id ==> c'.data[k] == c.data[k])
  {
    match s
    case StartCall(r, id, at, w) => c.(calls := c.calls[id := Begin(r, id, at, w)])
    case WorkerReply(id, items, at) => c.(data := Ingest(c.data, id, items, at))
    case CleanupPass(at) => c.(data := Sweep(c.data, at))
    case PollCall(id, at, w) =>
      var st := Tick(c.calls[id], c.data, at, w);
      assert Inv(c) ==> Valid(st.call) && st.call.Id() == id;
      c.(data := st.table, calls := c.calls[id := st.call])
    case GateTimer(ws) => c.(gate := Fire(c.gate, ws))
  }

  /**
   A reply for another id has no effect on a call: its next poll does the
   same with or without the reply, on every path, the timeout included. So a
   reply for one id never resolves, or stops, a call waiting on another id.
   */
  lemma ReplyIsolation(c: Controller, id: Id, other: Id, items: Items, at: int, pollAt: int, w: WorkerId)
    requires Inv(c) && id in c.calls && id != other
    ensures var c1 := Next(c, WorkerReply(other, items, at));
            Next(c1, PollCall(id, pollAt, w)).calls[id] == Next(c, PollCall(id, pollAt, w)).calls[id]
    ensures var c1 := Next(c, WorkerReply(other, items, at));
            var c2 := Next(c1, PollCall(id, pollAt, w));
            c.calls[id].result.None? && c.calls[id].polling && id !in c.data && !TimedOut(c.calls[id], pollAt) ==>
              c2.calls[id].result.None? && c2.calls[id].polling
  {
    var c1 := Next(c, WorkerReply(other, items, at));
    TickIsolated(c.calls[id], c1.data, c.data, pollAt, w);
  }
}

=== FILE: envelope.dfy ===
/**
 The request envelopes the controller process sends to a database worker.
 The seven facade operations (`find`, `findOne`, `insert`, `remove`,
 `update`, `incrementOne`, `increment`) differ only in the envelope they
 build: its `fnc` name and whether it carries a `where` filter and/or an
 `object`. The filter, the object and the result items are opaque to the
 controller and are modelled as opaque strings.
 */
module Envelopes {
  import opened Optional

  /** Correlation id (hex text of 64 random bytes in the program). */
  type Id = string
  /** A `where` filter, forwarded verbatim. */
  type Query = string
  /** An `object` argument or one result item, forwarded verbatim. */
  type Doc = string
  /** The `items` a worker replies with. */
  type Items = seq<Doc>

  /** The value of the envelope's `type` field. */
  const DbType: string := "db"

  datatype OpKind = Find | FindOne | Insert | Remove | Update | IncrementOne | Increment

  /** The `fnc` string a worker dispatches on. */
  function FncName(k: OpKind): string {
    match k
    case Find => "find"
    case FindOne => "findOne"
    case Insert => "insert"
    case Remove => "remove"
    case Update => "update"
    case IncrementOne => "incrementOne"
    case Increment => "increment"
  }

  /** The operation a worker reads from an `fnc` string, if any. */
  function KindOfName(s: string): (r: Option<OpKind>)
    ensures r.Some? ==> FncName(r.value) == s
  {
    if s == "find" then Some(Find)
    else if s == "findOne" then Some(FindOne)
    else if s == "insert" then Some(Insert)
    else if s == "remove" then Some(Remove)
    else if s == "update" then Some(Update)
    else if s == "incrementOne" then Some(IncrementOne)
    else if s == "increment" then Some(Increment)
    else None
  }

  /** Every operation name reads back as that operation, so names are distinct. */
  lemma FncNameRoundTrip(k: OpKind)
    ensures KindOfName(FncName(k)) == Some(k)
  {
  }

  /** One facade call's arguments. */
  datatype Request =
    | FindReq(table: string, where: Query)
    | FindOneReq(table: string, where: Query)
    | InsertReq(table: string, obj: Doc)
    | RemoveReq(table: string, where: Query)
    | UpdateReq(table: string, where: Query, obj: Doc)
    | IncrementOneReq(table: string, where: Query, obj: Doc)
    | IncrementReq(table: string, where: Query, obj: Doc)
  {
    function Kind(): OpKind {
      match this
      case FindReq(_, _) => Find
      case FindOneReq(_, _) => FindOne
      case InsertReq(_, _) => Insert
      case RemoveReq(_, _) => Remove
      case UpdateReq(_, _, _) => Update
      case IncrementOneReq(_, _, _) => IncrementOne
      case IncrementReq(_, _, _) => Increment
    }
  }

  /** Which operations put a `where` filter into the envelope. */
  predicate CarriesWhere(k: OpKind) {
    k != Insert
  }

  /** Which operations put an `object` into the envelope. */
  predicate CarriesObject(k: OpKind) {
    k == Insert || k == Update || k == IncrementOne || k == Increment
  }

  datatype Envelope = Envelope(msgType: string, fnc: string, table: string,
                               where: Option<Query>, obj: Option<Doc>, id: Id)

  /** The envelope a facade operation sends for request `r` under correlation id `id`. */
  function MakeEnvelope(r: Request, id: Id): (e: Envelope)
    ensures e.msgType == DbType && e.id == id && e.table == r.table
    ensures e.fnc == FncName(r.Kind())
    ensures e.where.Some? <==> CarriesWhere(r.Kind())
    ensures e.obj.Some? <==> CarriesObject(r.Kind())
  {
    match r
    case FindReq(t, w) => Envelope(DbType, "find", t, Some(w), None, id)
    case FindOneReq(t, w) => Envelope(DbType, "findOne", t, Some(w), None, id)
    case InsertReq(t, o) => Envelope(DbType, "insert", t, None, Some(o), id)
    case RemoveReq(t, w) => Envelope(DbType, "remove", t, Some(w), None, id)
    case UpdateReq(t, w, o) => Envelope(DbType, "update", t, Some(w), Some(o), id)
    case IncrementOneReq(t, w, o) => Envelope(DbType, "incrementOne", t, Some(w), Some(o), id)
    case IncrementReq(t, w, o) => Envelope(DbType, "increment", t, Some(w), Some(o), id)
  }

  /** What a worker reads out of an envelope: the request, when the envelope is well formed. */
  function RequestOf(e: Envelope): Option<Request> {
    if e.msgType != DbType then None
    else match (KindOfName(e.fnc), e.where, e.obj)
      case (Some(Find), Some(w), None) => Some(FindReq(e.table, w))
      case (Some(FindOne), Some(w), None) => Some(FindOneReq(e.table, w))
      case (Some(Insert), None, Some(o)) => Some(InsertReq(e.table, o))
      case (Some(Remove), Some(w), None) => Some(RemoveReq(e.table, w))
      case (Some(Update), Some(w), Some(o)) => Some(UpdateReq(e.table, w, o))
      case (Some(IncrementOne), Some(w), Some(o)) => Some(IncrementOneReq(e.table, w, o))
      case (Some(Increment), Some(w), Some(o)) => Some(IncrementReq(e.table, w, o))
      case _ => None
  }

  /** An envelope carries its request intact: reading it back gives the request. */
  lemma EnvelopeRoundTrip(r: Request, id: Id)
    ensures RequestOf(MakeEnvelope(r, id)) == Some(r)
  {
  }

  /** Envelopes of different calls differ, and so do envelopes of different requests. */
  lemma EnvelopeInjective(r1: Request, id1: Id, r2: Request, id2: Id)
    ensures MakeEnvelope(r1, id1) == MakeEnvelope(r2, id2) <==> r1 == r2 && id1 == id2
  {
    if MakeEnvelope(r1, id1) == MakeEnvelope(r2, id2) {
      EnvelopeRoundTrip(r1, id1);
      EnvelopeRoundTrip(r2, id2);
    }
  }
}

=== FILE: get_time.dfy ===
/**
 `getTime(time, isChat)`: formats the time elapsed since `time`. The
 difference itself comes from a date library and is taken here as a given
 record; the model covers the two output modes built from it: the record
 of non-zero fields used in chat, and the zero-padded `[Nd]HH:MM:SS` text.
 */
module GetTime {
  import opened Optional
  import opened Text

  datatype Duration = Duration(days: int, hours: int, minutes: int, seconds: int)

  const Zero: Duration := Duration(0, 0, 0, 0)

  predicate NonNegative(d: Duration) {
    d.days >= 0 && d.hours >= 0 && d.minutes >= 0 && d.seconds >= 0
  }

  /**
   The duration `getTime` formats: all zeros when `time` is null or 0
   (both falsy), otherwise the library's difference `diff`.
   */
  function Elapsed(time: Option<int>, diff: Duration): (d: Duration)
    ensures time.None? || time.value == 0 ==> d == Zero
    ensures time.Some? && time.value != 0 ==> d == diff
  {
    if time.None? || time.value == 0 then Zero else diff
  }

  /** A chat field: a number, or the empty string. */
  datatype Field = Num(n: int) | Blank

  datatype ChatTime = ChatTime(days: Field, hours: Field, minutes: Field, seconds: Field)

  /** The value a chat field stands for; a blank stands for zero. */
  function FieldValue(f: Field): int {
    match f
    case Num(n) => n
    case Blank => 0
  }

  function Shown(n: int): Field {
    if n > 0 then Num(n) else Blank
  }

  /** The `isChat` branch. */
  function Chat(d: Duration): (r: ChatTime)
    // never all blank
    ensures r.days.Num? || r.hours.Num? || r.minutes.Num? || r.seconds.Num?
    // a field is shown only as a positive number
    ensures r.days.Num? ==> r.days.n > 0
    ensures r.hours.Num? ==> r.hours.n > 0
    ensures r.minutes.Num? ==> r.minutes.n > 0
    ensures r.seconds.Num? ==> r.seconds.n > 0
    // days, hours and minutes are shown exactly when positive
    ensures r.days.Num? <==> d.days > 0
    ensures r.hours.Num? <==> d.hours > 0
    ensures r.minutes.Num? <==> d.minutes > 0
    // seconds are shown when positive, and as 1 when nothing else would be
    ensures r.seconds.Num? <==> d.seconds > 0 || (d.days <= 0 && d.hours <= 0 && d.minutes <= 0)
  {
    var r := ChatTime(Shown(d.days), Shown(d.hours), Shown(d.minutes), Shown(d.seconds));
    if r.days.Blank? && r.hours.Blank? && r.minutes.Blank? && r.seconds.Blank? then r.(seconds := Num(1))
    else r
  }

  /** The duration a chat record stands for. */
  function ChatValue(c: ChatTime): Duration {
    Duration(FieldValue(c.days), FieldValue(c.hours), FieldValue(c.minutes), FieldValue(c.seconds))
  }

  /**
   Reading a chat record back gives the duration, except that a duration
   with nothing positive reads back as one second.
   */
  lemma ChatRoundTrip(d: Duration)
    requires NonNegative(d)
    ensures d != Zero ==> ChatValue(Chat(d)) == d
    ensures d == Zero ==> ChatValue(Chat(d)) == Duration(0, 0, 0, 1)
  {
  }

  /** A number below ten gets a leading `0`. */
  function Pad2(n: int): string {
    if 0 <= n < 10 then "0" + IntToString(n) else IntToString(n)
  }

  lemma Pad2Digits(n: nat)
    ensures AllDigits(Pad2(n)) && |Pad2(n)| >= 2
    ensures DigitsValue(Pad2(n)) == n
  {
    NatToStringRoundTrip(n);
    if n < 10 {
      LeadingZero(NatToString(n));
    }
  }

  function DaysPrefix(days: int): string {
    if days > 0 then IntToString(days) + "d" else ""
  }

  /** The non-chat branch: `[Nd]HH:MM:SS`. */
  function Clock(d: Duration): string {
    DaysPrefix(d.days) + Pad2(d.hours) + ":" + Pad2(d.minutes) + ":" + Pad2(d.seconds)
  }

  /** `getTime` itself: the chat record or the clock text. */
  datatype Formatted = ChatForm(chat: ChatTime) | ClockForm(text: string)

  function Format(time: Option<int>, diff: Duration, isChat: bool): (r: Formatted)
    ensures isChat <==> r.ChatForm?
    ensures r.ChatForm? ==> ChatValue(r.chat) == ChatValue(Chat(Elapsed(time, diff)))
    ensures r.ClockForm? ==> r.text == Clock(Elapsed(time, diff))
    ensures (time.None? || time.value == 0) && isChat ==> r == ChatForm(ChatTime(Blank, Blank, Blank, Num(1)))
    ensures (time.None? || time.value == 0) && !isChat ==> r == ClockForm("00:00:00")
  {
    if isChat then ChatForm(Chat(Elapsed(time, diff))) else ClockForm(Clock(Elapsed(time, diff)))
  }

  /** A non-empty run of digits. */
  predicate Numeral(s: string) {
    |s| > 0 && AllDigits(s)
  }

  /** Reads `[Nd]HH:MM:SS` text back into a duration. */
  function ParseClock(s: string): Option<Duration> {
    var parts := Split(s, ':');
    if |parts| != 3 || !Numeral(parts[1]) || !Numeral(parts[2]) then None
    else
      var head := Split(parts[0], 'd');
      if |head| == 1 && Numeral(head[0]) then
        Some(Duration(0, DigitsValue(head[0]), DigitsValue(parts[1]), DigitsValue(parts[2])))
      else if |head| == 2 && Numeral(head[0]) && Numeral(head[1]) then
        Some(Duration(DigitsValue(head[0]), DigitsValue(head[1]), DigitsValue(parts[1]), DigitsValue(parts[2])))
      else None
  }

  lemma DigitsAvoid(s: string)
    requires AllDigits(s)
    ensures ':' !in s && 'd' !in s
  {
    forall i | 0 <= i < |s|
      ensures s[i] != ':' && s[i] != 'd'
    {
    }
  }

  /** The first field of the clock text, before the first `:`. */
  lemma ClockHead(d: Duration)
    requires NonNegative(d)
    ensures ':' !in DaysPrefix(d.days) + Pad2(d.hours)
    ensures d.days > 0 ==> Split(DaysPrefix(d.days) + Pad2(d.hours), 'd') == [IntToString(d.days), Pad2(d.hours)]
    ensures d.days == 0 ==> Split(DaysPrefix(d.days) + Pad2(d.hours), 'd') == [Pad2(d.hours)]
  {
    Pad2Digits(d.hours);
    DigitsAvoid(Pad2(d.hours));
    if d.days > 0 {
      DigitsAvoid(IntToString(d.days));
      SplitAt(IntToString(d.days), 'd', Pad2(d.hours));
      SplitNone(Pad2(d.hours), 'd');
      assert IntToString(d.days) + "d" + Pad2(d.hours) == IntToString(d.days) + ['d'] + Pad2(d.hours);
      var p := DaysPrefix(d.days) + Pad2(d.hours);
      var n := |IntToString(d.days)|;
      forall i | 0 <= i < |p|
        ensures p[i] != ':'
      {
        if i < n {
          assert p[i] == IntToString(d.days)[i];
        } else if i > n {
          assert p[i] == Pad2(d.hours)[i - n - 1];
        }
      }
    } else {
      assert DaysPrefix(d.days) + Pad2(d.hours) == Pad2(d.hours);
      SplitNone(Pad2(d.hours), 'd');
    }
  }

  /** The clock text splits at `:` into the head, the minutes and the seconds. */
  lemma ClockParts(d: Duration)
    requires NonNegative(d)
    ensures Split(Clock(d), ':') == [DaysPrefix(d.days) + Pad2(d.hours), Pad2(d.minutes), Pad2(d.seconds)]
  {
    var head := DaysPrefix(d.days) + Pad2(d.hours);
    var mm := Pad2(d.minutes);
    var ss := Pad2(d.seconds);
    Pad2Digits(d.minutes);
    Pad2Digits(d.seconds);
    DigitsAvoid(mm);
    DigitsAvoid(ss);
    ClockHead(d);
    assert Clock(d) == head + [':'] + (mm + [':'] + ss);
    SplitAt(head, ':', mm + [':'] + ss);
    SplitAt(mm, ':', ss);
    SplitNone(ss, ':');
  }

  /** The clock text of a non-negative duration reads back as that duration. */
  lemma ClockRoundTrip(d: Duration)
    requires NonNegative(d)
    ensures ParseClock(Clock(d)) == Some(d)
  {
    ClockParts(d);
    ClockHead(d);
    Pad2Digits(d.hours);
    Pad2Digits(d.minutes);
    Pad2Digits(d.seconds);
    if d.days > 0 {
      NatToStringRoundTrip(d.days);
    }
  }

  lemma Pad2NoDay(n: nat)
    ensures 'd' !in Pad2(n)
  {
    Pad2Digits(n);
    DigitsAvoid(Pad2(n));
  }

  /** The days prefix appears exactly when there is at least one day. */
  lemma DaysShownIffPositive(d: Duration)
    requires NonNegative(d)
    ensures 'd' in Clock(d) <==> d.days > 0
  {
    var tail := Pad2(d.hours) + ":" + Pad2(d.minutes) + ":" + Pad2(d.seconds);
    Pad2NoDay(d.hours);
    Pad2NoDay(d.minutes);
    Pad2NoDay(d.seconds);
    assert 'd' !in tail;
    assert Clock(d) == DaysPrefix(d.days) + tail;
    if d.days > 0 {
      assert DaysPrefix(d.days)[|IntToString(d.days)|] == 'd';
    }
  }

  /** A field below ten prints as `0` and its digit; a larger one prints without a leading zero. */
  lemma Pad2Shape(n: nat)
    ensures n < 10 ==> Pad2(n) == ['0', DigitChar(n)]
    ensures Pad2(n)[0] == '0' <==> n < 10
  {
    Pad2Digits(n);
  }

  /**
   Each of hours, minutes and seconds gets a leading `0` exactly when it is
   below ten, independently of the others, and hours and minutes are each
   followed by `:`: the text splits at `:` into three parts, the first
   ending in the hours.
   */
  lemma SmallFieldsPadded(d: Duration)
    requires NonNegative(d)
    ensures var p := Split(Clock(d), ':');
            && |p| == 3
            && p[0] == DaysPrefix(d.days) + Pad2(d.hours)
            && (p[0][|DaysPrefix(d.days)|] == '0' <==> d.hours < 10)
            && (d.hours < 10 ==> p[0][|DaysPrefix(d.days)|..] == ['0', DigitChar(d.hours)])
            && |p[1]| >= 2 && (p[1][0] == '0' <==> d.minutes < 10)
            && (d.minutes < 10 ==> p[1] == ['0', DigitChar(d.minutes)])
            && |p[2]| >= 2 && (p[2][0] == '0' <==> d.seconds < 10)
            && (d.seconds < 10 ==> p[2] == ['0', DigitChar(d.seconds)])
  {
    ClockParts(d);
    Pad2Shape(d.hours);
    Pad2Shape(d.minutes);
    Pad2Shape(d.seconds);
    var head := DaysPrefix(d.days) + Pad2(d.hours);
    assert head[|DaysPrefix(d.days)|] == Pad2(d.hours)[0];
    assert head[|DaysPrefix(d.days)|..] == Pad2(d.hours);
  }
}

=== FILE: moderation.dfy ===
/**
 The decision rules of the chat moderation system: warning escalation in
 `timeoutUser`, the announce cooldown `isSilent`, the permit branch of the
 link check, the long-message, emote and blacklist checks, the exemption
 guard every check starts with, and the `lists.set` sanitiser.

 The database tables become explicit state: the warnings table, the permit
 table (one row per permit, so a multiset of user ids) and the cooldown
 table (name to timestamp). Pattern matching over message text is left
 abstract: a check receives the outcome of its pattern as an input.
 */
module Moderation {
  import opened Optional
  import opened Text

  type UserId = nat

  /** A user's highest permission group; only the casters group is singled out. */
  datatype Permission = Casters | Other(id: string)

  datatype Warning = Warning(userId: UserId, timestamp: int)

  datatype ModState = ModState(warnings: seq<Warning>, permits: multiset<UserId>,
                               cooldowns: map<string, int>)

  /** Warnings older than an hour (in milliseconds) are purged. */
  const WarningLifetime: int := 1000 * 60 * 60
  /** A second announcement of the same kind within a minute is suppressed. */
  const AnnounceCooldown: int := 60000

  datatype WarningSettings = WarningSettings(allowedCount: int, announceTimeouts: bool,
                                             shouldClearChat: bool)

  /** The offending message's sender, the clock, and the warning settings. */
  datatype Context = Context(user: UserId, now: int, settings: WarningSettings)

  // ---------------------------------------------------------------- warnings table

  predicate Live(w: Warning, now: int) {
    w.timestamp >= now - WarningLifetime
  }

  /** Deletes every warning older than an hour. */
  function Purge(ws: seq<Warning>, now: int): (r: seq<Warning>)
    ensures forall w :: w in r <==> w in ws && Live(w, now)
    ensures |r| <= |ws|
  {
    if |ws| == 0 then []
    else (if Live(ws[0], now) then [ws[0]] else []) + Purge(ws[1..], now)
  }

  /** The warnings of one user. */
  function OfUser(ws: seq<Warning>, u: UserId): (r: seq<Warning>)
    ensures forall w :: w in r <==> w in ws && w.userId == u
    ensures |r| <= |ws|
  {
    if |ws| == 0 then []
    else (if ws[0].userId == u then [ws[0]] else []) + OfUser(ws[1..], u)
  }

  /** Deletes every warning of one user. */
  function WithoutUser(ws: seq<Warning>, u: UserId): (r: seq<Warning>)
    ensures forall w :: w in r <==> w in ws && w.userId != u
    ensures |r| <= |ws|
  {
    if |ws| == 0 then []
    else (if ws[0].userId != u then [ws[0]] else []) + WithoutUser(ws[1..], u)
  }

  lemma {:induction false} PurgeAllLive(ws: seq<Warning>, now: int)
    requires forall i :: 0 <= i < |ws| ==> Live(ws[i], now)
    ensures Purge(ws, now) == ws
  {
    if |ws| > 0 {
      PurgeAllLive(ws[1..], now);
    }
  }

  lemma {:induction false} OfUserAppend(ws: seq<Warning>, w: Warning, u: UserId)
    ensures OfUser(ws + [w], u) == OfUser(ws, u) + (if w.userId == u then [w] else [])
  {
    if |ws| > 0 {
      assert (ws + [w])[1..] == ws[1..] + [w];
      OfUserAppend(ws[1..], w, u);
    } else {
      assert (ws + [w])[1..] == [];
    }
  }

  /**
   The purge works warning by warning: appending one warning appends it to
   the purged list exactly when it is live. With `Purge([]) == []` this fixes
   the purged list's contents, multiplicity and order.
   */
  lemma {:induction false} PurgeAppend(ws: seq<Warning>, w: Warning, now: int)
    ensures Purge(ws + [w], now) == Purge(ws, now) + (if Live(w, now) then [w] else [])
  {
    if |ws| > 0 {
      assert (ws + [w])[1..] == ws[1..] + [w];
      PurgeAppend(ws[1..], w, now);
    } else {
      assert (ws + [w])[1..] == [];
    }
  }

  /** Deleting one user's warnings keeps every other warning, copies and order included. */
  lemma {:induction false} WithoutUserAppend(ws: seq<Warning>, w: Warning, u: UserId)
    ensures WithoutUser(ws + [w], u) == WithoutUser(ws, u) + (if w.userId != u then [w] else [])
  {
    if |ws| > 0 {
      assert (ws + [w])[1..] == ws[1..] + [w];
      WithoutUserAppend(ws[1..], w, u);
    } else {
      assert (ws + [w])[1..] == [];
    }
  }

  /** Deleting one user's warnings leaves every other user's warnings exactly as they were. */
  lemma {:induction false} OfUserWithout(ws: seq<Warning>, u: UserId, v: UserId)
    requires v != u
    ensures OfUser(WithoutUser(ws, u), v) == OfUser(ws, v)
  {
    if |ws| > 0 {
      OfUserWithout(ws[1..], u, v);
      var head := if ws[0].userId != u then [ws[0]] else [];
      OfUserSplit(head, WithoutUser(ws[1..], u), v);
    }
  }

  lemma {:induction false} OfUserSplit(a: seq<Warning>, b: seq<Warning>, v: UserId)
    ensures OfUser(a + b, v) == OfUser(a, v) + OfUser(b, v)
    decreases |a|
  {
    if |a| > 0 {
      assert (a + b)[0] == a[0];
      assert (a + b)[1..] == a[1..] + b;
      OfUserSplit(a[1..], b, v);
    } else {
      assert a + b == b;
    }
  }

  lemma {:induction false} OfUserNone(ws: seq<Warning>, u: UserId)
    requires forall i :: 0 <= i < |ws| ==> ws[i].userId != u
    ensures OfUser(ws, u) == []
  {
    if |ws| > 0 {
      OfUserNone(ws[1..], u);
    }
  }

  lemma WithoutUserHasNone(ws: seq<Warning>, u: UserId)
    ensures OfUser(WithoutUser(ws, u), u) == []
  {
    var r := WithoutUser(ws, u);
    forall i | 0 <= i < |r|
      ensures r[i].userId != u
    {
      assert r[i] in r;
    }
    OfUserNone(r, u);
  }

  // ---------------------------------------------------------------- isSilent

  datatype Silence = Silence(silent: bool, cooldowns: map<string, int>)

  /**
   `isSilent(name)`: not silent, and the cooldown restarted, when no record
   exists or the last one is at least a minute old; silent otherwise.
   */
  function IsSilent(cooldowns: map<string, int>, name: string, now: int): (r: Silence)
    ensures !r.silent <==> name !in cooldowns || now - cooldowns[name] >= AnnounceCooldown
    ensures !r.silent ==> r.cooldowns == cooldowns[name := now]
    ensures r.silent ==> r.cooldowns == cooldowns
  {
    if name !in cooldowns || now - cooldowns[name] >= AnnounceCooldown then
      Silence(false, cooldowns[name := now])
    else Silence(true, cooldowns)
  }

  /**
   After an announcement at `t`, the next check of the same kind is silent
   exactly when it comes less than a minute later; other kinds are unaffected.
   */
  lemma CooldownWindow(cooldowns: map<string, int>, name: string, other: string, t: int, later: int)
    requires !IsSilent(cooldowns, name, t).silent && t <= later && other != name
    ensures IsSilent(IsSilent(cooldowns, name, t).cooldowns, name, later).silent <==> later - t < AnnounceCooldown
    ensures IsSilent(IsSilent(cooldowns, name, t).cooldowns, other, later).silent == IsSilent(cooldowns, other, later).silent
  {
  }

  // ---------------------------------------------------------------- timeoutUser

  /** Which message template `$count` is substituted into. */
  datatype Template = TimeoutText | WarningText

  datatype Announcement = NotAnnounced | Replied | Suppressed

  datatype Sanction =
    | TimedOut(seconds: int, count: int, template: Template)
    | Warned(warningsLeft: int, clearsChat: bool, announcement: Announcement)

  datatype Applied = Applied(state: ModState, sanction: Sanction)

  /** The number of live warnings `u` has at `now`. */
  function LiveCount(st: ModState, u: UserId, now: int): nat {
    |OfUser(Purge(st.warnings, now), u)|
  }

  /**
   `timeoutUser`: purges old warnings, then times the user out (with no
   warning stored) when no warnings are allowed, times the user out and
   forgets all their warnings when they already have the allowed number,
   and otherwise records one more warning.
   */
  function TimeoutUser(st: ModState, s: WarningSettings, u: UserId, kind: string, time: int, now: int): (r: Applied)
    // permits are untouched; the cooldown of `kind` is checked whichever branch runs
    ensures r.state.permits == st.permits
    ensures r.state.cooldowns == IsSilent(st.cooldowns, kind, now).cooldowns
    // no warnings allowed: always a timeout, `$count` is -1, nothing stored
    ensures s.allowedCount == 0 ==>
      && r.sanction == TimedOut(time, -1, TimeoutText)
      && OfUser(r.state.warnings, u) == OfUser(Purge(st.warnings, now), u)
    // the allowed number reached: a timeout, and the user's warnings are deleted
    ensures s.allowedCount != 0 && LiveCount(st, u, now) >= s.allowedCount ==>
      && r.sanction == TimedOut(time, s.allowedCount - LiveCount(st, u, now), WarningText)
      && OfUser(r.state.warnings, u) == []
    // otherwise exactly one warning more, and at least one warning left (no clamping)
    ensures s.allowedCount != 0 && LiveCount(st, u, now) < s.allowedCount ==>
      && r.sanction.Warned?
      && r.sanction.warningsLeft == s.allowedCount - LiveCount(st, u, now) >= 1
      && r.sanction.clearsChat == s.shouldClearChat
      && OfUser(r.state.warnings, u) == OfUser(Purge(st.warnings, now), u) + [Warning(u, now)]
    // an announcement goes out only when enabled and the cooldown allows it
    ensures r.sanction.Warned? ==>
      (r.sanction.announcement == Replied <==> s.announceTimeouts && !IsSilent(st.cooldowns, kind, now).silent)
  {
    var purged := Purge(st.warnings, now);
    var mine := OfUser(purged, u);
    var silence := IsSilent(st.cooldowns, kind, now);
    var st1 := st.(warnings := purged, cooldowns := silence.cooldowns);
    assert |mine| == LiveCount(st, u, now);
    if s.allowedCount == 0 then
      Applied(st1, TimedOut(time, -1, TimeoutText))
    else if |mine| >= s.allowedCount then
      Forget(st1, u, TimedOut(time, s.allowedCount - |mine|, WarningText))
    else
      var left := s.allowedCount - |mine|;
      var announcement :=
        if !s.announceTimeouts then NotAnnounced else if silence.silent then Suppressed else Replied;
      Warn(st1, u, now, Warned(if left < 0 then 0 else left, s.shouldClearChat, announcement))
  }

  /** The timeout branch that deletes every warning of `u`. */
  function Forget(st: ModState, u: UserId, sanction: Sanction): (r: Applied)
    ensures r.state.permits == st.permits && r.state.cooldowns == st.cooldowns
    ensures r.sanction == sanction
    ensures OfUser(r.state.warnings, u) == []
  {
    WithoutUserHasNone(st.warnings, u);
    Applied(st.(warnings := WithoutUser(st.warnings, u)), sanction)
  }

  /** The branch that stores one more warning of `u`, issued at `now`. */
  function Warn(st: ModState, u: UserId, now: int, sanction: Sanction): (r: Applied)
    ensures r.state.permits == st.permits && r.state.cooldowns == st.cooldowns
    ensures r.sanction == sanction
    ensures OfUser(r.state.warnings, u) == OfUser(st.warnings, u) + [Warning(u, now)]
  {
    OfUserAppend(st.warnings, Warning(u, now), u);
    Applied(st.(warnings := st.warnings + [Warning(u, now)]), sanction)
  }

  /**
   Only live warnings remain after `timeoutUser`; every other user keeps
   exactly their live warnings, copies and order included; and with at least
   one warning allowed, the user holds no more than the allowed number.
   */
  lemma TimeoutUserFrame(st: ModState, s: WarningSettings, u: UserId, kind: string, time: int, now: int)
    ensures var r := TimeoutUser(st, s, u, kind, time, now);
            && (forall w :: w in r.state.warnings ==> Live(w, now))
            && (forall v :: v != u ==> OfUser(r.state.warnings, v) == OfUser(Purge(st.warnings, now), v))
            && (s.allowedCount >= 1 ==> |OfUser(r.state.warnings, u)| <= s.allowedCount)
  {
    var purged := Purge(st.warnings, now);
    var r := TimeoutUser(st, s, u, kind, time, now);
    forall v | v != u
      ensures OfUser(r.state.warnings, v) == OfUser(purged, v)
    {
      OfUserWithout(purged, u, v);
      OfUserAppend(purged, Warning(u, now), v);
    }
  }

  datatype Trail = Trail(state: ModState, sanctions: seq<Sanction>)

  /** `n` offences by the same user at the same moment, one `timeoutUser` each. */
  function Repeat(st: ModState, s: WarningSettings, u: UserId, kind: string, time: int, now: int, n: nat): (r: Trail)
    ensures |r.sanctions| == n
  {
    if n == 0 then Trail(st, []) else Step(Repeat(st, s, u, kind, time, now, n - 1), s, u, kind, time, now)
  }

  /** One more offence appended to a trail. */
  function Step(t: Trail, s: WarningSettings, u: UserId, kind: string, time: int, now: int): Trail {
    var a := TimeoutUser(t.state, s, u, kind, time, now);
    Trail(a.state, t.sanctions + [a.sanction])
  }

  /** Below the allowed number, one more offence adds exactly one live warning. */
  lemma WarnStep(st: ModState, s: WarningSettings, u: UserId, kind: string, time: int, now: int)
    requires 1 <= s.allowedCount && LiveCount(st, u, now) < s.allowedCount
    ensures var a := TimeoutUser(st, s, u, kind, time, now);
            && LiveCount(a.state, u, now) == LiveCount(st, u, now) + 1
            && a.sanction.Warned? && a.sanction.warningsLeft == s.allowedCount - LiveCount(st, u, now)
  {
    var a := TimeoutUser(st, s, u, kind, time, now);
    TimeoutUserFrame(st, s, u, kind, time, now);
    PurgeAllLive(a.state.warnings, now);
  }

  /** Every offence of the trail was warned, counting down from the allowed number, and each left one live warning. */
  predicate AllWarned(t: Trail, s: WarningSettings, u: UserId, now: int) {
    LiveCount(t.state, u, now) == |t.sanctions| && CountsDown(t.sanctions, s.allowedCount)
  }

  lemma {:induction false} RepeatWarns(st: ModState, s: WarningSettings, u: UserId, kind: string, time: int, now: int, n: nat)
    requires s.allowedCount >= 1 && n <= s.allowedCount
    requires LiveCount(st, u, now) == 0
    ensures var t := Repeat(st, s, u, kind, time, now, n);
            && |t.sanctions| == n
            && AllWarned(t, s, u, now)
  {
    if n > 0 {
      var t := Repeat(st, s, u, kind, time, now, n - 1);
      assert |t.sanctions| == n - 1 && AllWarned(t, s, u, now) by {
        RepeatWarns(st, s, u, kind, time, now, n - 1);
      }
      WarnTrail(t, s, u, kind, time, now);
    }
  }

  /** A trail of warnings only, one per live warning, stays so after one more offence below the allowed number. */
  lemma WarnTrail(t: Trail, s: WarningSettings, u: UserId, kind: string, time: int, now: int)
    requires AllWarned(t, s, u, now) && |t.sanctions| < s.allowedCount
    ensures AllWarned(Step(t, s, u, kind, time, now), s, u, now)
  {
    var a := TimeoutUser(t.state, s, u, kind, time, now);
    WarnStep(t.state, s, u, kind, time, now);
    WarnedCountdown(t.sanctions, a.sanction, s.allowedCount);
  }

  /** All warnings counting down from `allowed`. */
  predicate CountsDown(sanctions: seq<Sanction>, allowed: int) {
    forall i :: 0 <= i < |sanctions| ==> sanctions[i].Warned? && sanctions[i].warningsLeft == allowed - i
  }

  lemma WarnedCountdown(prev: seq<Sanction>, last: Sanction, allowed: int)
    requires CountsDown(prev, allowed)
    requires last.Warned? && last.warningsLeft == allowed - |prev|
    ensures CountsDown(prev + [last], allowed)
  {
    var all := prev + [last];
    forall i | 0 <= i < |all|
      ensures all[i].Warned? && all[i].warningsLeft == allowed - i
    {
      if i < |prev| {
        assert all[i] == prev[i];
      }
    }
  }

  /**
   Escalation: with `k >= 1` warnings allowed and none on record, `k`
   offences at the same moment are warned (with `k, k-1, …, 1` warnings
   left) and the next one is a timeout that clears the user's warnings.
   */
  lemma Escalation(st: ModState, s: WarningSettings, u: UserId, kind: string, time: int, now: int)
    requires s.allowedCount >= 1
    requires LiveCount(st, u, now) == 0
    ensures var t := Repeat(st, s, u, kind, time, now, s.allowedCount + 1);
            && (forall i :: 0 <= i < s.allowedCount ==> t.sanctions[i].Warned? && t.sanctions[i].warningsLeft == s.allowedCount - i)
            && t.sanctions[s.allowedCount] == TimedOut(time, 0, WarningText)
            && OfUser(t.state.warnings, u) == []
  {
    var k := s.allowedCount;
    RepeatWarns(st, s, u, kind, time, now, k);
  }

  // ---------------------------------------------------------------- parsers

  /**
   The guard every check starts with: a user with no permission group, a
   group the check is disabled for, or the casters group passes unchecked.
   */
  predicate Exempt(permId: Option<Permission>, enabled: Permission -> bool) {
    permId.None? || !enabled(permId.value) || permId.value == Casters
  }

  /** A check's verdict: whether the message passes, the new state, and the sanction if `timeoutUser` ran. */
  datatype Decision = Decision(ok: bool, state: ModState, sanction: Option<Sanction>)

  function Pass(st: ModState): Decision {
    Decision(true, st, None)
  }

  /** The message fails and `timeoutUser` runs once. */
  function Punish(st: ModState, ctx: Context, kind: string, time: int): Decision {
    var a := TimeoutUser(st, ctx.settings, ctx.user, kind, time, ctx.now);
    Decision(false, a.state, Some(a.sanction))
  }

  /**
   `containsLink`, given whether the whitelisted message matches the link
   pattern: a link is let through by consuming one of the sender's permits,
   and without a permit the sender is sanctioned.
   */
  function ContainsLink(st: ModState, ctx: Context, permId: Option<Permission>,
                        enabled: Permission -> bool, timeouts: Permission -> int, hasLink: bool): (r: Decision)
    ensures Exempt(permId, enabled) ==> r == Pass(st)
    ensures !r.ok <==> !Exempt(permId, enabled) && hasLink && ctx.user !in st.permits
    ensures !r.ok ==> r == Punish(st, ctx, "links", timeouts(permId.value))
    ensures r.ok && r.state != st ==> r.state == st.(permits := st.permits - multiset{ctx.user})
    ensures r.ok ==> r.sanction.None? && r.state.permits[ctx.user] == st.permits[ctx.user] - (if !Exempt(permId, enabled) && hasLink then 1 else 0)
  {
    if Exempt(permId, enabled) then Pass(st)
    else if hasLink then
      if ctx.user in st.permits then Pass(st.(permits := st.permits - multiset{ctx.user}))
      else Punish(st, ctx, "links", timeouts(permId.value))
    else Pass(st)
  }

  /**
   `longMessage`, given the whitelisted text: it fails when its trimmed
   length, in UTF-16 code units as JS counts it, reaches the trigger.
   */
  function LongMessage(st: ModState, ctx: Context, permId: Option<Permission>, enabled: Permission -> bool,
                       trigger: Permission -> int, timeouts: Permission -> int, text: string): (r: Decision)
    ensures Exempt(permId, enabled) ==> r == Pass(st)
    ensures !r.ok <==> !Exempt(permId, enabled) && Utf16Length(Trim(text)) >= trigger(permId.value)
    ensures !r.ok ==> r == Punish(st, ctx, "longmessage", timeouts(permId.value))
    ensures r.ok ==> r == Pass(st)
  {
    if Exempt(permId, enabled) then Pass(st)
    else if Utf16Length(Trim(text)) < trigger(permId.value) then Pass(st)
    else Punish(st, ctx, "longmessage", timeouts(permId.value))
  }

  /** White space around a message never changes the long-message verdict. */
  lemma LongMessageIgnoresPadding(st: ModState, ctx: Context, permId: Option<Permission>, enabled: Permission -> bool,
                                  trigger: Permission -> int, timeouts: Permission -> int,
                                  pre: string, text: string, post: string)
    requires AllWhite(pre) && AllWhite(post)
    ensures LongMessage(st, ctx, permId, enabled, trigger, timeouts, pre + text + post)
         == LongMessage(st, ctx, permId, enabled, trigger, timeouts, text)
  {
    TrimPadding(pre, text, post);
  }

  /**
   Emoji count twice: a message of `k` emoji (characters beyond the Basic
   Multilingual Plane) from a sender who is not exempt fails as soon as
   `2 * k` reaches the trigger, although it has only `k` characters.
   */
  lemma EmojiMessageIsLong(st: ModState, ctx: Context, permId: Option<Permission>, enabled: Permission -> bool,
                           trigger: Permission -> int, timeouts: Permission -> int, text: string)
    requires !Exempt(permId, enabled)
    requires forall i :: 0 <= i < |text| ==> text[i] > '\U{FFFF}'
    ensures !LongMessage(st, ctx, permId, enabled, trigger, timeouts, text).ok <==> 2 * |text| >= trigger(permId.value)
  {
    assert NoWhite(text);
    TrimNoWhite(text);
    Utf16Astral(text);
    assert Utf16Length(Trim(text)) == 2 * |text|;
  }

  /**
   `emotes`: a message whose emote list is not iterable passes before any
   other test; otherwise it fails when its emotes (plus its emoji, when
   emoji count as emotes) exceed the maximum.
   */
  function Emotes(st: ModState, ctx: Context, emotes: Option<nat>, emojiCount: nat,
                  permId: Option<Permission>, enabled: Permission -> bool, emojisAreEmotes: Permission -> bool,
                  maxCount: Permission -> int, timeouts: Permission -> int): (r: Decision)
    ensures emotes.None? || Exempt(permId, enabled) ==> r == Pass(st)
    ensures !r.ok <==>
      && emotes.Some? && !Exempt(permId, enabled)
      && emotes.value + (if emojisAreEmotes(permId.value) then emojiCount else 0) > maxCount(permId.value)
    ensures !r.ok ==> r == Punish(st, ctx, "emotes", timeouts(permId.value))
    ensures r.ok ==> r == Pass(st)
  {
    if emotes.None? then Pass(st)
    else if Exempt(permId, enabled) then Pass(st)
    else
      var count := emotes.value + (if emojisAreEmotes(permId.value) then emojiCount else 0);
      if count > maxCount(permId.value) then Punish(st, ctx, "emotes", timeouts(permId.value))
      else Pass(st)
  }

  /** More emotes never turn a failing message into a passing one. */
  lemma EmotesMonotone(st: ModState, ctx: Context, n: nat, m: nat, emojiCount: nat,
                       permId: Option<Permission>, enabled: Permission -> bool, emojisAreEmotes: Permission -> bool,
                       maxCount: Permission -> int, timeouts: Permission -> int)
    requires n <= m
    requires !Emotes(st, ctx, Some(n), emojiCount, permId, enabled, emojisAreEmotes, maxCount, timeouts).ok
    ensures !Emotes(st, ctx, Some(m), emojiCount, permId, enabled, emojisAreEmotes, maxCount, timeouts).ok
  {
  }

  /**
   A blacklist pattern is built from a trimmed entry and compiled for each
   message; `hits` says whether it compiles (`None` when XRegExp throws)
   and, if so, whether it occurs in the message.
   */
  type Patterns = string -> Option<bool>

  /** The patterns the blacklist loop walks: every entry trimmed, in order. */
  function TrimAll(list: seq<string>): (r: seq<string>)
    ensures |r| == |list| && forall i :: 0 <= i < |list| ==> r[i] == Trim(list[i])
  {
    seq(|list|, i requires 0 <= i < |list| => Trim(list[i]))
  }

  /** The pattern is non-empty, compiles, and occurs in the message. */
  predicate Hit(value: string, hits: Patterns) {
    |value| > 0 && hits(value) == Some(true)
  }

  /** The pattern is non-empty and does not compile. */
  predicate Broken(value: string, hits: Patterns) {
    |value| > 0 && hits(value).None?
  }

  /** The blacklist loop stops at this pattern, by a match or by a throw. */
  predicate Stops(value: string, hits: Patterns) {
    Hit(value, hits) || Broken(value, hits)
  }

  /** Some blacklist entry matches the message. */
  predicate BlacklistHit(list: seq<string>, hits: Patterns) {
    exists i :: 0 <= i < |list| && Hit(Trim(list[i]), hits)
  }

  /** How the blacklist loop ends: past the last pattern, at a match, or at a throw. */
  datatype Scan = Clean | Matched(at: nat) | Thrown(at: nat)

  /** The loop over the patterns in order, stopping at the first one that matches or throws. */
  function ScanList(values: seq<string>, hits: Patterns): (r: Scan)
    ensures r.Clean? ==> forall j :: 0 <= j < |values| ==> !Stops(values[j], hits)
    ensures !r.Clean? ==> r.at < |values| && forall j :: 0 <= j < r.at ==> !Stops(values[j], hits)
    ensures r.Matched? ==> Hit(values[r.at], hits)
    ensures r.Thrown? ==> Broken(values[r.at], hits)
    decreases |values|
  {
    if |values| == 0 then Clean
    else if Hit(values[0], hits) then Matched(0)
    else if Broken(values[0], hits) then Thrown(0)
    else
      match ScanList(values[1..], hits)
      case Clean => Clean
      case Matched(k) => Matched(k + 1)
      case Thrown(k) => Thrown(k + 1)
  }

  /** When every pattern compiles, the loop matches exactly when some entry matches. */
  lemma CompiledScan(list: seq<string>, hits: Patterns)
    requires forall i :: 0 <= i < |list| ==> !Broken(Trim(list[i]), hits)
    ensures ScanList(TrimAll(list), hits).Matched? <==> BlacklistHit(list, hits)
    ensures !ScanList(TrimAll(list), hits).Thrown?
  {
    var v := TrimAll(list);
    var r := ScanList(v, hits);
    if BlacklistHit(list, hits) {
      var i :| 0 <= i < |list| && Hit(Trim(list[i]), hits);
      assert Stops(v[i], hits);
    }
    if !r.Clean? {
      assert v[r.at] == Trim(list[r.at]);
    }
  }

  /**
   The order of the entries matters: a pattern that does not compile (such
   as `:(`, an unclosed group) stops the loop before a later match, but a
   match before it ends the loop first.
   */
  lemma OrderMatters(broken: string, hit: string, hits: Patterns)
    requires Broken(broken, hits) && Hit(hit, hits)
    ensures ScanList([broken, hit], hits) == Thrown(0)
    ensures ScanList([hit, broken], hits) == Matched(0)
  {
    assert [broken, hit][0] == broken;
    assert [hit, broken][0] == hit;
  }

  /**
   The shared guard is exactly what lets a message through unchecked: an
   exempt sender passes the link, long-message and emote checks untouched,
   and with a zero trigger the long-message check passes nobody else.
   */
  lemma ExemptGuard(st: ModState, ctx: Context, permId: Option<Permission>, enabled: Permission -> bool,
                    timeouts: Permission -> int, hasLink: bool, text: string, emotes: nat, emojiCount: nat,
                    emojisAreEmotes: Permission -> bool, maxCount: Permission -> int)
    ensures Exempt(permId, enabled) ==>
      && ContainsLink(st, ctx, permId, enabled, timeouts, hasLink) == Pass(st)
      && Emotes(st, ctx, Some(emotes), emojiCount, permId, enabled, emojisAreEmotes, maxCount, timeouts) == Pass(st)
    ensures Exempt(permId, enabled) <==> LongMessage(st, ctx, permId, enabled, (p: Permission) => 0, timeouts, text).ok
  {
  }

  /** The blackvalues loop itself, which computes the scan. */
  method FirstHit(values: seq<string>, hits: Patterns) returns (r: Scan)
    ensures r == ScanList(values, hits)
  {
    var i := 0;
    while i < |values|
      invariant 0 <= i <= |values|
      invariant forall j :: 0 <= j < i ==> !Stops(values[j], hits)
    {
      if Hit(values[i], hits) {
        ScanUnique(values, hits, Matched(i));
        return Matched(i);
      }
      if Broken(values[i], hits) {
        ScanUnique(values, hits, Thrown(i));
        return Thrown(i);
      }
      i := i + 1;
    }
    ScanUnique(values, hits, Clean);
    return Clean;
  }

  /** Whatever stops at the first stopping entry, or runs through when none stops, is the scan. */
  lemma ScanUnique(values: seq<string>, hits: Patterns, s: Scan)
    requires s.Clean? ==> forall j :: 0 <= j < |values| ==> !Stops(values[j], hits)
    requires !s.Clean? ==> s.at < |values| && forall j :: 0 <= j < s.at ==> !Stops(values[j], hits)
    requires s.Matched? ==> Hit(values[s.at], hits)
    requires s.Thrown? ==> Broken(values[s.at], hits)
    ensures s == ScanList(values, hits)
  {
    var r := ScanList(values, hits);
    if r.Clean? || s.Clean? {
      if !r.Clean? {
        assert Stops(values[r.at], hits);
      }
      if !s.Clean? {
        assert Stops(values[s.at], hits);
      }
    } else {
      if r.at < s.at {
        assert Stops(values[r.at], hits);
      } else if s.at < r.at {
        assert Stops(values[s.at], hits);
      }
      assert r.at == s.at;
    }
  }

  /**
   `blacklist`, given how each trimmed entry's pattern fares on the message:
   the first matching entry fails the message, `timeoutUser` runs once, and
   the loop stops; an entry whose pattern does not compile before that makes
   the parser throw (`None`) with nothing changed.
   */
  method Blacklist(st: ModState, ctx: Context, permId: Option<Permission>, enabled: Permission -> bool,
                   timeouts: Permission -> int, list: seq<string>, hits: Patterns) returns (r: Option<Decision>)
    ensures Exempt(permId, enabled) ==> r == Some(Pass(st))
    ensures r.None? <==> !Exempt(permId, enabled) && ScanList(TrimAll(list), hits).Thrown?
    ensures r.Some? && !r.value.ok <==> !Exempt(permId, enabled) && ScanList(TrimAll(list), hits).Matched?
    ensures r.Some? && !r.value.ok ==> r.value == Punish(st, ctx, "blacklist", timeouts(permId.value))
    ensures r.Some? && r.value.ok ==> r.value == Pass(st)
  {
    if Exempt(permId, enabled) {
      return Some(Pass(st));
    }
    var scan := FirstHit(TrimAll(list), hits);
    match scan
    case Clean => r := Some(Pass(st));
    case Matched(_) => r := Some(Punish(st, ctx, "blacklist", timeouts(permId.value)));
    case Thrown(_) => r := None;
  }

  // ---------------------------------------------------------------- lists.set

  /** `lists.set`: drops the entries that are empty once trimmed, keeping the rest in order. */
  function Sanitize(entries: seq<string>): (r: seq<string>)
    ensures forall e :: e in r <==> e in entries && |Trim(e)| > 0
    ensures |r| <= |entries|
  {
    if |entries| == 0 then []
    else (if |Trim(entries[0])| > 0 then [entries[0]] else []) + Sanitize(entries[1..])
  }

  /** Sanitising respects concatenation, so the kept entries stay in their original order. */
  lemma {:induction false} SanitizeAppend(a: seq<string>, b: seq<string>)
    ensures Sanitize(a + b) == Sanitize(a) + Sanitize(b)
  {
    if |a| > 0 {
      assert (a + b)[0] == a[0];
      assert (a + b)[1..] == a[1..] + b;
      SanitizeAppend(a[1..], b);
    } else {
      assert a + b == b;
    }
  }

  /** Sanitising twice is sanitising once. */
  lemma {:induction false} SanitizeIdempotent(entries: seq<string>)
    ensures Sanitize(Sanitize(entries)) == Sanitize(entries)
  {
    if |entries| > 0 {
      var head := if |Trim(entries[0])| > 0 then [entries[0]] else [];
      SanitizeIdempotent(entries[1..]);
      SanitizeAppend(head, Sanitize(entries[1..]));
      if |head| == 1 {
        assert Sanitize(head) == [entries[0]] + Sanitize([]);
      }
    }
  }

  /** A blacklist hit is a non-empty trimmed entry whose pattern occurs, wherever it sits in the list. */
  lemma HitByMember(list: seq<string>, hits: Patterns)
    ensures BlacklistHit(list, hits) <==> exists e :: e in list && Hit(Trim(e), hits)
  {
    if e :| e in list && Hit(Trim(e), hits) {
      var i :| 0 <= i < |list| && list[i] == e;
    }
  }

  /** Two scans end the same way, whatever the index they stop at. */
  predicate SameEnd(a: Scan, b: Scan) {
    a.Clean? == b.Clean? && a.Matched? == b.Matched?
  }

  /** A pattern the loop passes over does not change how it ends. */
  lemma ScanSkip(values: seq<string>, hits: Patterns)
    requires |values| > 0 && !Stops(values[0], hits)
    ensures SameEnd(ScanList(values, hits), ScanList(values[1..], hits))
  {
  }

  lemma TrimAllTail(list: seq<string>)
    requires |list| > 0
    ensures TrimAll(list)[0] == Trim(list[0]) && TrimAll(list)[1..] == TrimAll(list[1..])
  {
  }

  /** An entry that trims to nothing is dropped by the sanitiser. */
  lemma SanitizeBlank(list: seq<string>)
    requires |list| > 0 && |Trim(list[0])| == 0
    ensures Sanitize(list) == Sanitize(list[1..])
  {
    var head: seq<string> := [];
    var rest := Sanitize(list[1..]);
    assert Sanitize(list) == head + rest;
    assert head + rest == rest;
  }

  /** An entry that does not trim to nothing is kept at the front. */
  lemma SanitizeKept(list: seq<string>)
    requires |list| > 0 && |Trim(list[0])| > 0
    ensures |Sanitize(list)| > 0 && Sanitize(list)[0] == list[0] && Sanitize(list)[1..] == Sanitize(list[1..])
  {
    assert Sanitize(list) == [list[0]] + Sanitize(list[1..]);
  }

  /** The patterns without the empty ones, which the loop skips. */
  function DropEmpty(values: seq<string>): seq<string> {
    if |values| == 0 then []
    else (if |values[0]| > 0 then [values[0]] else []) + DropEmpty(values[1..])
  }

  /** Skipping the empty patterns beforehand does not change how the loop ends. */
  lemma {:induction false} ScanDropEmpty(values: seq<string>, hits: Patterns)
    ensures SameEnd(ScanList(DropEmpty(values), hits), ScanList(values, hits))
    decreases |values|
  {
    if |values| > 0 {
      var rest := values[1..];
      ScanDropEmpty(rest, hits);
      var d := DropEmpty(values);
      if |values[0]| == 0 {
        var head: seq<string> := [];
        assert d == head + DropEmpty(rest);
        assert head + DropEmpty(rest) == DropEmpty(rest);
        ScanSkip(values, hits);
      } else {
        assert d == [values[0]] + DropEmpty(rest);
        assert d[0] == values[0] && d[1..] == DropEmpty(rest);
        if !Stops(values[0], hits) {
          ScanSkip(values, hits);
          ScanSkip(d, hits);
        }
      }
    }
  }

  /** The sanitised list's patterns are the original patterns without the empty ones. */
  lemma {:induction false} TrimAllSanitize(list: seq<string>)
    ensures TrimAll(Sanitize(list)) == DropEmpty(TrimAll(list))
    decreases |list|
  {
    if |list| > 0 {
      var rest := list[1..];
      TrimAllSanitize(rest);
      TrimAllTail(list);
      var v := TrimAll(list);
      if |Trim(list[0])| == 0 {
        SanitizeBlank(list);
        var head: seq<string> := [];
        assert DropEmpty(v) == head + DropEmpty(v[1..]);
      } else {
        SanitizeKept(list);
        TrimAllTail(Sanitize(list));
        assert DropEmpty(v) == [v[0]] + DropEmpty(v[1..]);
      }
    }
  }

  /** Sanitising the blacklist never changes how the loop ends: clean, at a match, or at a throw. */
  lemma SanitizeKeepsScan(list: seq<string>, hits: Patterns)
    ensures SameEnd(ScanList(TrimAll(Sanitize(list)), hits), ScanList(TrimAll(list), hits))
  {
    TrimAllSanitize(list);
    ScanDropEmpty(TrimAll(list), hits);
  }

  /** Sanitising the blacklist never changes which messages it catches. */
  lemma SanitizeKeepsBlacklist(list: seq<string>, hits: Patterns)
    ensures BlacklistHit(Sanitize(list), hits) <==> BlacklistHit(list, hits)
  {
    HitByMember(list, hits);
    HitByMember(Sanitize(list), hits);
  }

  datatype Lists = Lists(blacklist: seq<string>, whitelist: seq<string>)

  function SetLists(blacklist: seq<string>, whitelist: seq<string>): (r: Lists)
    ensures r.blacklist == Sanitize(blacklist) && r.whitelist == Sanitize(whitelist)
    ensures forall e :: e in r.blacklist <==> e in blacklist && |Trim(e)| > 0
    ensures forall e :: e in r.whitelist <==> e in whitelist && |Trim(e)| > 0
  {
    Lists(Sanitize(blacklist), Sanitize(whitelist))
  }
}

=== FILE: optional.dfy ===
/** A small Some/None datatype used for JavaScript's `null`/`undefined`. */
module Optional {

  datatype Option<+T> = None | Some(value: T) {

    /** The wrapped value, or `default` when there is none. */
    function GetOr(default: T): (r: T)
      ensures Some? ==> r == value
      ensures None? ==> r == default
    {
      match this
      case Some(v) => v
      case None => default
    }
  }
}

=== FILE: permit.dfy ===
/**
 The `!permit` command: parses `[@]name [count]` with the pattern
 `^@?([\S]+) ?(\d+)?$`, then inserts `count` permit rows (one when no count
 is given) for the named user. A parameter the pattern rejects yields the
 parse-failed reply and inserts nothing. Each permit lets one message with
 a link through the link check.
 */
module PermitCommand {
  import opened Optional
  import opened Text
  import opened Moderation

  /** The pattern's two groups: the user name, and the optional count digits. */
  datatype PermitArgs = PermitArgs(name: string, digits: Option<string>)

  /** The index of the first white-space character, or the length when there is none. */
  function FirstWhite(b: string): (k: nat)
    ensures k <= |b| && NoWhite(b[..k])
    ensures k < |b| ==> IsWhite(b[k])
  {
    if |b| == 0 || IsWhite(b[0]) then 0
    else
      var k := 1 + FirstWhite(b[1..]);
      assert b[..k] == [b[0]] + b[1..][..k - 1];
      k
  }

  /** `([\S]+) ?(\d+)?$` against the whole of `b`; `[\S]+` is greedy. */
  function MatchBody(b: string): (r: Option<PermitArgs>)
    ensures r.Some? ==> |r.value.name| > 0 && NoWhite(r.value.name)
    ensures r.Some? && r.value.digits.Some? ==> |r.value.digits.value| > 0 && AllDigits(r.value.digits.value)
  {
    var k := FirstWhite(b);
    if k == 0 then None
    else if k == |b| then Some(PermitArgs(b, None))
    else if b[k] != ' ' || !AllDigits(b[k + 1..]) then None
    else if k + 1 == |b| then Some(PermitArgs(b[..k], None))
    else Some(PermitArgs(b[..k], Some(b[k + 1..])))
  }

  /** The whole pattern: `@?` takes a leading `@` unless the rest fails without it. */
  function MatchPermit(p: string): (r: Option<PermitArgs>)
    ensures r.Some? ==> |r.value.name| > 0 && NoWhite(r.value.name)
    ensures r.Some? && r.value.digits.Some? ==> |r.value.digits.value| > 0 && AllDigits(r.value.digits.value)
  {
    if |p| > 0 && p[0] == '@' && MatchBody(p[1..]).Some? then MatchBody(p[1..])
    else MatchBody(p)
  }

  /** `p` is an optional `@`, a non-empty name without white space, an optional space, and digits. */
  ghost predicate Shape(p: string, at: bool, name: string, space: bool, digits: string) {
    && p == (if at then "@" else "") + name + (if space then " " else "") + digits
    && |name| > 0 && NoWhite(name) && AllDigits(digits)
  }

  lemma MatchBodySound(b: string)
    requires MatchBody(b).Some?
    ensures var a := MatchBody(b).value;
            exists space: bool :: Shape(b, false, a.name, space, a.digits.GetOr(""))
  {
    var k := FirstWhite(b);
    var a := MatchBody(b).value;
    if k == |b| {
      assert b[..k] == b;
      assert a == PermitArgs(b, None);
      assert b == "" + a.name + "" + "";
      assert a.digits.GetOr("") == "";
      assert Shape(b, false, a.name, false, a.digits.GetOr(""));
    } else {
      assert b == b[..k] + " " + b[k + 1..];
      assert Shape(b, false, a.name, true, a.digits.GetOr(""));
    }
  }

  /** What the pattern accepts has the shape it describes, with the groups as captured. */
  lemma MatchSound(p: string)
    requires MatchPermit(p).Some?
    ensures var a := MatchPermit(p).value;
            exists at: bool, space: bool :: Shape(p, at, a.name, space, a.digits.GetOr(""))
  {
    var a := MatchPermit(p).value;
    if |p| > 0 && p[0] == '@' && MatchBody(p[1..]).Some? {
      MatchBodySound(p[1..]);
      var space: bool :| Shape(p[1..], false, a.name, space, a.digits.GetOr(""));
      assert p == "@" + p[1..];
      assert Shape(p, true, a.name, space, a.digits.GetOr(""));
    } else {
      MatchBodySound(p);
    }
  }

  lemma FirstWhiteOfShape(name: string, rest: string)
    requires |name| > 0 && NoWhite(name)
    requires rest == [] || IsWhite(rest[0])
    ensures FirstWhite(name + rest) == |name|
    decreases |name|
  {
    var b := name + rest;
    if |name| > 1 {
      assert b[1..] == name[1..] + rest;
      FirstWhiteOfShape(name[1..], rest);
    } else {
      assert b[1..] == rest;
    }
  }

  lemma DigitsNoWhite(d: string)
    requires AllDigits(d)
    ensures NoWhite(d)
  {
  }

  lemma MatchBodyComplete(b: string, name: string, space: bool, digits: string)
    requires Shape(b, false, name, space, digits)
    ensures MatchBody(b).Some?
  {
    DigitsNoWhite(digits);
    if space {
      assert b == name + (" " + digits);
      FirstWhiteOfShape(name, " " + digits);
      assert b[|name| + 1..] == digits;
    } else {
      assert b == name + digits;
      assert NoWhite(b);
      FirstWhiteOfShape(b, []);
      assert b + [] == b;
    }
  }

  /** Everything of the described shape is accepted by the pattern. */
  lemma MatchComplete(p: string, at: bool, name: string, space: bool, digits: string)
    requires Shape(p, at, name, space, digits)
    ensures MatchPermit(p).Some?
  {
    if at {
      assert p[1..] == name + (if space then " " else "") + digits;
      MatchBodyComplete(p[1..], name, space, digits);
    } else {
      MatchBodyComplete(p, name, space, digits);
    }
  }

  /** ASCII lower-casing of one character. */
  function LowerChar(c: char): char {
    if 'A' <= c <= 'Z' then (c as int + 32) as char else c
  }

  function Lower(s: string): (r: string)
    ensures |r| == |s| && forall i :: 0 <= i < |s| ==> r[i] == LowerChar(s[i])
  {
    seq(|s|, i requires 0 <= i < |s| => LowerChar(s[i]))
  }

  /** The number of permits to grant: the count given, or one. */
  function PermitCount(a: PermitArgs): nat
    requires a.digits.Some? ==> AllDigits(a.digits.value)
  {
    match a.digits
    case None => 1
    case Some(d) => DigitsValue(d)
  }

  datatype PermitReply = LinkPermitGranted(username: string, count: nat) | PermitParseFailed

  /** `st` with `n` more permits for user `u`. */
  function Granted(st: ModState, u: UserId, n: nat): ModState {
    st.(permits := st.permits[u := st.permits[u] + n])
  }

  /**
   `!permit`. `idOf` is the user lookup on the lower-cased name, `None` when
   it throws; `failAt` is the index of the first permit insert that throws,
   if one does. Every throw inside the command, the parse failure included,
   ends in the parse-failed reply, and permits inserted before the throw stay.
   */
  method PermitLink(st: ModState, parameters: string, idOf: string -> Option<UserId>, failAt: Option<nat>)
    returns (st': ModState, reply: PermitReply)
    ensures MatchPermit(parameters).None? ==> st' == st && reply == PermitParseFailed
    ensures MatchPermit(parameters).Some? && idOf(Lower(MatchPermit(parameters).value.name)).None? ==>
      st' == st && reply == PermitParseFailed
    ensures MatchPermit(parameters).Some? && idOf(Lower(MatchPermit(parameters).value.name)).Some? ==>
      var a := MatchPermit(parameters).value;
      var user := idOf(Lower(a.name)).value;
      var count := PermitCount(a);
      if failAt.Some? && failAt.value < count then
        st' == Granted(st, user, failAt.value) && reply == PermitParseFailed
      else
        st' == Granted(st, user, count) && reply == LinkPermitGranted(Lower(a.name), count)
  {
    var m := MatchPermit(parameters);
    if m.None? {
      return st, PermitParseFailed;
    }
    var count := PermitCount(m.value);
    var found := idOf(Lower(m.value.name));
    if found.None? {
      return st, PermitParseFailed;
    }
    var user := found.value;
    st' := st;
    var i := 0;
    while i < count
      invariant 0 <= i <= count
      invariant failAt.Some? ==> i <= failAt.value
      invariant st' == Granted(st, user, i)
    {
      if failAt == Some(i) {
        return st', PermitParseFailed;
      }
      st' := st'.(permits := st'.permits + multiset{user});
      i := i + 1;
    }
    reply := LinkPermitGranted(Lower(m.value.name), count);
  }

  /** `k` link messages in a row from the context's user. */
  function LinkRun(st: ModState, ctx: Context, permId: Option<Permission>, enabled: Permission -> bool,
                   timeouts: Permission -> int, k: nat): (run: seq<Decision>)
    ensures |run| == k
    decreases k
  {
    if k == 0 then []
    else
      var d := ContainsLink(st, ctx, permId, enabled, timeouts, true);
      [d] + LinkRun(d.state, ctx, permId, enabled, timeouts, k - 1)
  }

  lemma GrantedNone(st: ModState, u: UserId)
    ensures Granted(st, u, 0) == st
  {
    assert st.permits[u := st.permits[u]] == st.permits;
  }

  /** With a permit in hand and no exemption, a link message passes and uses up exactly one permit. */
  lemma ConsumeOne(st: ModState, ctx: Context, permId: Option<Permission>,
                   enabled: Permission -> bool, timeouts: Permission -> int, n: nat)
    requires !Exempt(permId, enabled) && n > 0
    ensures ContainsLink(Granted(st, ctx.user, n), ctx, permId, enabled, timeouts, true)
            == Pass(Granted(st, ctx.user, n - 1))
  {
    var g := Granted(st, ctx.user, n);
    assert ctx.user in g.permits;
    assert g.permits - multiset{ctx.user} == Granted(st, ctx.user, n - 1).permits;
  }

  lemma LinkRunHead(st: ModState, ctx: Context, permId: Option<Permission>, enabled: Permission -> bool,
                    timeouts: Permission -> int, k: nat, d: Decision)
    requires k > 0 && d == ContainsLink(st, ctx, permId, enabled, timeouts, true)
    ensures LinkRun(st, ctx, permId, enabled, timeouts, k) == [d] + LinkRun(d.state, ctx, permId, enabled, timeouts, k - 1)
  {
  }

  /** A run of passing decisions stays passing when one more passing decision goes in front. */
  lemma PassingPrefix(d: Decision, rest: seq<Decision>, n: nat)
    requires d.ok && |rest| == n + 1 && forall i :: 0 <= i < n ==> rest[i].ok
    ensures forall i :: 0 <= i < n + 1 ==> ([d] + rest)[i].ok
  {
    forall i | 0 <= i < n + 1
      ensures ([d] + rest)[i].ok
    {
      if i > 0 {
        assert ([d] + rest)[i] == rest[i - 1];
      }
    }
  }

  /**
   Granting `n` permits to a user who has none lets exactly `n` of their
   link messages through; the next one is sanctioned.
   */
  lemma {:induction false} PermitsConsumed(st: ModState, ctx: Context, permId: Option<Permission>,
                                           enabled: Permission -> bool, timeouts: Permission -> int, n: nat)
    requires !Exempt(permId, enabled)
    ensures var run := LinkRun(Granted(st, ctx.user, n), ctx, permId, enabled, timeouts, n + 1);
            && |run| == n + 1
            && (forall i :: 0 <= i < n ==> run[i].ok)
            && (st.permits[ctx.user] == 0 ==> !run[n].ok)
    decreases n
  {
    var g := Granted(st, ctx.user, n);
    var run := LinkRun(g, ctx, permId, enabled, timeouts, n + 1);
    if n > 0 {
      var d := Pass(Granted(st, ctx.user, n - 1));
      var rest := LinkRun(d.state, ctx, permId, enabled, timeouts, n);
      ConsumeOne(st, ctx, permId, enabled, timeouts, n);
      LinkRunHead(g, ctx, permId, enabled, timeouts, n + 1, d);
      PermitsConsumed(st, ctx, permId, enabled, timeouts, n - 1);
      PassingPrefix(d, rest, n - 1);
      assert run[n] == rest[n - 1];
    } else {
      GrantedNone(st, ctx.user);
      var d := ContainsLink(st, ctx, permId, enabled, timeouts, true);
      LinkRunHead(st, ctx, permId, enabled, timeouts, 1, d);
      assert run[0] == d;
    }
  }
}

=== FILE: readiness.dfy ===
/**
 The readiness gate `connect`: it walks the worker pool and, when every
 worker's state is `'online'`, schedules `connected = true`; otherwise it
 schedules itself again. The flag starts false and is never reset. Timer
 delays are left abstract: a scheduled callback runs when `Fire` is applied.
 */
module Readiness {

  /** A worker's `state` string as the cluster reports it. */
  type WorkerState = string

  const OnlineState: WorkerState := "online"

  predicate AllOnline(workers: seq<WorkerState>) {
    forall i :: 0 <= i < |workers| ==> workers[i] == OnlineState
  }

  /** The `for … in cluster.workers` loop of `connect`. */
  method CheckWorkers(workers: seq<WorkerState>) returns (allOnline: bool)
    ensures allOnline <==> AllOnline(workers)
  {
    allOnline := true;
    var i := 0;
    while i < |workers|
      invariant 0 <= i <= |workers|
      invariant allOnline <==> forall j :: 0 <= j < i ==> workers[j] == OnlineState
    {
      if workers[i] != OnlineState {
        allOnline := false;
      }
      i := i + 1;
    }
  }

  /** The callback `connect` left pending, if any. */
  datatype Pending = Nothing | SetConnected | Recheck

  datatype Gate = Gate(connected: bool, pending: Pending)

  /** The controller right after construction has run `connect` once. */
  function Init(workers: seq<WorkerState>): (g: Gate)
    ensures !g.connected
    ensures g.pending == SetConnected <==> AllOnline(workers)
    ensures g.pending != Nothing
  {
    Connect(Gate(false, Nothing), workers)
  }

  /** One run of `connect` against the pool as it is now. */
  function Connect(g: Gate, workers: seq<WorkerState>): (g': Gate)
    ensures g'.connected == g.connected
    ensures g'.pending == if AllOnline(workers) then SetConnected else Recheck
  {
    g.(pending := if AllOnline(workers) then SetConnected else Recheck)
  }

  /** The pending callback runs; a re-check sees the pool as it is then. */
  function Fire(g: Gate, workers: seq<WorkerState>): (g': Gate)
    ensures g.connected ==> g'.connected
    ensures !g.connected && g'.connected ==> g.pending == SetConnected
    ensures g.pending == Recheck ==> g' == Connect(g, workers)
  {
    match g.pending
    case Nothing => g
    case SetConnected => Gate(true, Nothing)
    case Recheck => Connect(g, workers)
  }

  /** The gate after the construction-time check against `snaps[0]`, then one firing per later snapshot. */
  function Boot(snaps: seq<seq<WorkerState>>): Gate
    requires |snaps| >= 1
    decreases |snaps|
  {
    if |snaps| == 1 then Init(snaps[0])
    else Fire(Boot(snaps[..|snaps| - 1]), snaps[|snaps| - 1])
  }

  /** `connected` never becomes true unless some check saw every worker online. */
  lemma {:induction false} ConnectedOnlyAfterAllOnline(snaps: seq<seq<WorkerState>>)
    requires |snaps| >= 1
    ensures Boot(snaps).connected || Boot(snaps).pending == SetConnected ==>
              exists i :: 0 <= i < |snaps| && AllOnline(snaps[i])
    decreases |snaps|
  {
    if |snaps| > 1 {
      var prefix := snaps[..|snaps| - 1];
      ConnectedOnlyAfterAllOnline(prefix);
      var g := Boot(prefix);
      var last := snaps[|snaps| - 1];
      if Boot(snaps).connected || Boot(snaps).pending == SetConnected {
        if g.connected || g.pending == SetConnected {
          var i :| 0 <= i < |prefix| && AllOnline(prefix[i]);
          assert snaps[i] == prefix[i];
        } else {
          assert AllOnline(snaps[|snaps| - 1]);
        }
      }
    }
  }

  /** While the pool is not all online, re-checking continues and `connected` stays false. */
  lemma {:induction false} NotOnlineKeepsChecking(snaps: seq<seq<WorkerState>>)
    requires |snaps| >= 1
    requires forall i :: 0 <= i < |snaps| ==> !AllOnline(snaps[i])
    ensures Boot(snaps) == Gate(false, Recheck)
    decreases |snaps|
  {
    if |snaps| > 1 {
      NotOnlineKeepsChecking(snaps[..|snaps| - 1]);
    }
  }

  /** Once the pool is all online at a re-check, the next firing sets `connected`. */
  lemma OnlineThenConnected(g: Gate, online: seq<WorkerState>, later: seq<WorkerState>)
    requires g.pending == Recheck && AllOnline(online)
    ensures Fire(Fire(g, online), later).connected
  {
  }
}

=== FILE: result_table.dfy ===
/**
 The controller's pending-result table `data`: correlation id to the last
 reply ingested for it. Entries are created by the message handler (ingest),
 marked finished by the call that reads them, and evicted by `cleanup`.
 */
module ResultTable {
  import opened Envelopes

  datatype Entry = Entry(items: Items, timestamp: int, finished: bool)

  type Table = map<Id, Entry>

  /** Entries older than this many milliseconds are evicted. */
  const Retention: int := 10000

  /** The message handler: a worker's reply `{id, items}` received at `now`. */
  function Ingest(t: Table, id: Id, items: Items, now: int): (t': Table)
    ensures t'.Keys == t.Keys + {id}
    ensures t'[id] == Entry(items, now, false)
    ensures forall k :: k in t && k != id ==> t'[k] == t[k]
  {
    t[id := Entry(items, now, false)]
  }

  /** What `cleanup` deletes: a finished entry, or one older than the retention window. */
  predicate Evictable(e: Entry, now: int) {
    now - e.timestamp > Retention || e.finished
  }

  /** One pass of `cleanup` at time `now`. */
  function Sweep(t: Table, now: int): (t': Table)
    ensures forall k :: k in t' <==> k in t && !Evictable(t[k], now)
    ensures forall k :: k in t' ==> t'[k] == t[k]
  {
    map k | k in t && !Evictable(t[k], now) :: t[k]
  }

  /** No entry that is unfinished and at most `Retention` old is lost by a sweep. */
  lemma SweepKeepsLive(t: Table, now: int, id: Id)
    requires id in t && !t[id].finished && now - t[id].timestamp <= Retention
    ensures id in Sweep(t, now) && Sweep(t, now)[id] == t[id]
  {
  }

  /** A second sweep at the same time removes nothing more. */
  lemma SweepIdempotent(t: Table, now: int)
    ensures Sweep(Sweep(t, now), now) == Sweep(t, now)
  {
    var s := Sweep(t, now);
    assert Sweep(s, now).Keys == s.Keys;
  }

  /** A sweep at an earlier time is subsumed by one at a later time. */
  lemma SweepLater(t: Table, a: int, b: int)
    requires a <= b
    ensures Sweep(Sweep(t, a), b) == Sweep(t, b)
  {
    assert Sweep(Sweep(t, a), b).Keys == Sweep(t, b).Keys;
  }

  /** The reading call marks its entry finished; the entry stays until the next sweep. */
  function MarkFinished(t: Table, id: Id): (t': Table)
    requires id in t
    ensures t'.Keys == t.Keys
    ensures t'[id] == t[id].(finished := true)
    ensures forall k :: k in t && k != id ==> t'[k] == t[k]
  {
    t[id := t[id].(finished := true)]
  }

  /** A finished entry is gone after the next sweep, whatever its age. */
  lemma FinishedIsSwept(t: Table, id: Id, now: int)
    requires id in t
    ensures id !in Sweep(MarkFinished(t, id), now)
  {
  }
}

=== FILE: text.dfy ===
/**
 Character classes and string helpers shared by the model: JavaScript's
 white space (what `\s` matches and `String.prototype.trim` removes), the
 decimal rendering of integers that `+` on a string and a number performs,
 the `parseInt(_, 10)` reading of a run of ASCII digits, and splitting a
 string at a separator.
 */
module Text {

  /** JavaScript WhiteSpace and LineTerminator code points. */
  predicate IsWhite(c: char) {
    || c == '\t' || c == '\n' || c == '\U{000B}' || c == '\U{000C}' || c == '\r'
    || c == ' ' || c == '\U{00A0}' || c == '\U{1680}'
    || ('\U{2000}' <= c <= '\U{200A}')
    || c == '\U{2028}' || c == '\U{2029}' || c == '\U{202F}' || c == '\U{205F}'
    || c == '\U{3000}' || c == '\U{FEFF}'
  }

  /** ASCII decimal digit, the class `\d` matches. */
  predicate IsDigit(c: char) {
    '0' <= c <= '9'
  }

  predicate AllDigits(s: string) {
    forall i :: 0 <= i < |s| ==> IsDigit(s[i])
  }

  predicate NoWhite(s: string) {
    forall i :: 0 <= i < |s| ==> !IsWhite(s[i])
  }

  predicate AllWhite(s: string) {
    forall i :: 0 <= i < |s| ==> IsWhite(s[i])
  }

  /** Drops the white space at the start of `s`. */
  function TrimStart(s: string): (r: string)
    ensures |r| <= |s| && r == s[|s| - |r|..]
    ensures AllWhite(s[..|s| - |r|])
    ensures r == [] || !IsWhite(r[0])
  {
    if |s| > 0 && IsWhite(s[0]) then
      var t := s[1..];
      var r := TrimStart(t);
      TrimStartStep(s, t, r);
      r
    else s
  }

  /** Dropping one leading white space character keeps `r` a suffix of `s` preceded only by white space. */
  lemma TrimStartStep(s: string, t: string, r: string)
    requires |s| > 0 && IsWhite(s[0]) && t == s[1..]
    requires |r| <= |t| && r == t[|t| - |r|..] && AllWhite(t[..|t| - |r|])
    ensures r == s[|s| - |r|..] && AllWhite(s[..|s| - |r|])
  {
    assert s[..|s| - |r|] == [s[0]] + t[..|t| - |r|];
  }

  /** Drops the white space at the end of `s`. */
  function TrimEnd(s: string): (r: string)
    ensures |r| <= |s| && r == s[..|r|]
    ensures AllWhite(s[|r|..])
    ensures r == [] || !IsWhite(r[|r| - 1])
  {
    if |s| > 0 && IsWhite(s[|s| - 1]) then
      var r := TrimEnd(s[..|s| - 1]);
      assert s[|r|..] == s[..|s| - 1][|r|..] + [s[|s| - 1]];
      r
    else s
  }

  /** `String.prototype.trim`. */
  function Trim(s: string): (r: string)
    ensures exists i, j :: 0 <= i <= j <= |s| && r == s[i..j] && AllWhite(s[..i]) && AllWhite(s[j..])
    ensures r == [] || (!IsWhite(r[0]) && !IsWhite(r[|r| - 1]))
  {
    var a := TrimStart(s);
    var r := TrimEnd(a);
    TrimBounds(s, a, r);
    assert AllWhite(s[..|s| - |a|]);
    r
  }

  /** Text without white space is its own trim. */
  lemma TrimNoWhite(s: string)
    requires NoWhite(s)
    ensures Trim(s) == s
  {
    assert TrimStart(s) == s;
    assert TrimEnd(s) == s;
  }

  /** A prefix `r` of the suffix `a` of `s` is a slice of `s`, and what follows it in `a` runs to the end of `s`. */
  lemma TrimBounds(s: string, a: string, r: string)
    requires |a| <= |s| && a == s[|s| - |a|..]
    requires |r| <= |a| && r == a[..|r|] && AllWhite(a[|r|..])
    ensures r == s[|s| - |a|..|s| - |a| + |r|]
    ensures AllWhite(s[|s| - |a| + |r|..])
  {
    var i := |s| - |a|;
    var k := |r|;
    assert a[..k] == s[i..i + k];
    assert a[k..] == s[i + k..];
  }

  lemma {:induction false} TrimStartAllWhite(s: string)
    requires AllWhite(s)
    ensures TrimStart(s) == []
  {
    if |s| > 0 {
      TrimStartAllWhite(s[1..]);
    }
  }

  /** A string trims to nothing exactly when it is all white space. */
  lemma TrimEmptyIffAllWhite(s: string)
    ensures Trim(s) == [] <==> AllWhite(s)
  {
    var a := TrimStart(s);
    if AllWhite(s) {
      TrimStartAllWhite(s);
    }
    if Trim(s) == [] {
      assert a[0..] == a;
      assert a == [];
      assert s[..|s|] == s;
    }
  }

  /** Leading white space does not change where the text starts. */
  lemma {:induction false} TrimStartPrefix(pre: string, s: string)
    requires AllWhite(pre)
    ensures TrimStart(pre + s) == TrimStart(s)
  {
    if |pre| > 0 {
      assert (pre + s)[1..] == pre[1..] + s;
      TrimStartPrefix(pre[1..], s);
    } else {
      assert pre + s == s;
    }
  }

  /** Trailing white space does not change where the text ends. */
  lemma {:induction false} TrimEndSuffix(s: string, post: string)
    requires AllWhite(post)
    ensures TrimEnd(s + post) == TrimEnd(s)
  {
    if |post| > 0 {
      var p := post[..|post| - 1];
      assert (s + post)[..|s + post| - 1] == s + p;
      TrimEndSuffix(s, p);
    } else {
      assert s + post == s;
    }
  }

  /** Trimming the start of a string that is not all white space leaves any suffix in place. */
  lemma {:induction false} TrimStartSuffix(s: string, post: string)
    requires !AllWhite(s)
    ensures TrimStart(s + post) == TrimStart(s) + post
  {
    assert (s + post)[0] == s[0];
    if IsWhite(s[0]) {
      assert (s + post)[1..] == s[1..] + post;
      var k :| 0 <= k < |s| && !IsWhite(s[k]);
      assert s[1..][k - 1] == s[k];
      TrimStartSuffix(s[1..], post);
    }
  }

  /** White space around a text does not change its trim. */
  lemma TrimPadding(pre: string, text: string, post: string)
    requires AllWhite(pre) && AllWhite(post)
    ensures Trim(pre + text + post) == Trim(text)
  {
    assert pre + text + post == pre + (text + post);
    TrimStartPrefix(pre, text + post);
    if AllWhite(text) {
      assert AllWhite(text + post);
      TrimStartAllWhite(text + post);
      TrimStartAllWhite(text);
    } else {
      TrimStartSuffix(text, post);
      TrimEndSuffix(TrimStart(text), post);
    }
  }

  function DigitChar(d: nat): (c: char)
    requires d < 10
    ensures IsDigit(c) && c as int - '0' as int == d
  {
    (d + '0' as int) as char
  }

  /** The decimal rendering of a natural number, without leading zeros. */
  function NatToString(n: nat): (r: string)
    ensures 1 <= |r|
    ensures AllDigits(r)
    ensures |r| > 1 ==> r[0] != '0'
    ensures n < 10 <==> |r| == 1
  {
    if n < 10 then [DigitChar(n)] else NatToString(n / 10) + [DigitChar(n % 10)]
  }

  /** The decimal rendering of an integer, with a leading `-` when negative. */
  function IntToString(i: int): (r: string)
    ensures 1 <= |r|
    ensures i >= 0 ==> AllDigits(r)
    ensures i < 0 ==> r[0] == '-' && AllDigits(r[1..])
  {
    if i < 0 then "-" + NatToString(-i) else NatToString(i)
  }

  /** `parseInt(s, 10)` of a string of ASCII digits. */
  function DigitsValue(s: string): nat
    requires AllDigits(s)
  {
    if |s| == 0 then 0
    else DigitsValue(s[..|s| - 1]) * 10 + (s[|s| - 1] as int - '0' as int)
  }

  /** Reading back a rendered natural gives the number. */
  lemma {:induction false} NatToStringRoundTrip(n: nat)
    ensures DigitsValue(NatToString(n)) == n
  {
    if n >= 10 {
      var s := NatToString(n);
      assert s[..|s| - 1] == NatToString(n / 10);
      NatToStringRoundTrip(n / 10);
    }
  }

  /** A leading zero does not change the value read. */
  lemma {:induction false} LeadingZero(s: string)
    requires AllDigits(s)
    ensures DigitsValue("0" + s) == DigitsValue(s)
  {
    if |s| > 0 {
      assert ("0" + s)[..|s|] == "0" + s[..|s| - 1];
      LeadingZero(s[..|s| - 1]);
    }
  }

  /**
   `String.prototype.length`: the number of UTF-16 code units, so a character
   outside the Basic Multilingual Plane (most emoji) counts twice.
   */
  function Utf16Length(s: string): (n: nat)
    ensures |s| <= n <= 2 * |s|
  {
    if |s| == 0 then 0 else (if s[0] > '\U{FFFF}' then 2 else 1) + Utf16Length(s[1..])
  }

  /** Lengths add up over concatenation. */
  lemma {:induction false} Utf16Append(a: string, b: string)
    ensures Utf16Length(a + b) == Utf16Length(a) + Utf16Length(b)
    decreases |a|
  {
    if |a| > 0 {
      assert (a + b)[0] == a[0];
      assert (a + b)[1..] == a[1..] + b;
      Utf16Append(a[1..], b);
    } else {
      assert a + b == b;
    }
  }

  /** Text in the Basic Multilingual Plane has one code unit per character. */
  lemma {:induction false} Utf16Bmp(s: string)
    requires forall i :: 0 <= i < |s| ==> s[i] <= '\U{FFFF}'
    ensures Utf16Length(s) == |s|
    decreases |s|
  {
    if |s| > 0 {
      Utf16Bmp(s[1..]);
    }
  }

  /** Text made only of characters beyond the Basic Multilingual Plane has two code units per character. */
  lemma {:induction false} Utf16Astral(s: string)
    requires forall i :: 0 <= i < |s| ==> s[i] > '\U{FFFF}'
    ensures Utf16Length(s) == 2 * |s|
    decreases |s|
  {
    if |s| > 0 {
      Utf16Astral(s[1..]);
    }
  }

  /** `s.split(sep)`: the pieces between occurrences of `sep`. */
  function Split(s: string, sep: char): (parts: seq<string>)
    ensures 1 <= |parts|
  {
    if |s| == 0 then [""]
    else if s[0] == sep then [""] + Split(s[1..], sep)
    else
      var rest := Split(s[1..], sep);
      [[s[0]] + rest[0]] + rest[1..]
  }

  /** A string without the separator is one piece. */
  lemma {:induction false} SplitNone(s: string, sep: char)
    requires sep !in s
    ensures Split(s, sep) == [s]
  {
    if |s| > 0 {
      assert s[0] != sep;
      SplitNone(s[1..], sep);
      assert [s[0]] + s[1..] == s;
    }
  }

  /** A separator after a separator-free prefix ends the first piece. */
  lemma {:induction false} SplitAt(a: string, sep: char, b: string)
    requires sep !in a
    ensures Split(a + [sep] + b, sep) == [a] + Split(b, sep)
  {
    var s := a + [sep] + b;
    if |a| == 0 {
      assert s[1..] == b;
    } else {
      assert s[1..] == a[1..] + [sep] + b;
      assert s[0] == a[0] && a[0] != sep;
      SplitAt(a[1..], sep, b);
      assert [a[0]] + a[1..] == a;
    }
  }
}

=== FILE: wait_loop.dfy ===
/**
 The wait loop shared by the seven facade operations. After the first send,
 the call polls the result table once per tick: it re-sends the same
 envelope on a linear schedule (at most four times), gives up with `[]`
 after 30 seconds, and when an entry for its own id is present it marks
 that entry finished, resolves with its items and stops polling. A promise
 settles once, so the first resolution wins; after a timeout the loop keeps
 polling and still marks a late entry finished.

 Time is a discrete clock in milliseconds; each tick, reply and sweep is
 one atomic step over the result table.
 */
module WaitLoop {
  import opened Optional
  import opened Envelopes
  import opened ResultTable

  /** A retry is due once the call is older than this many milliseconds times `retries`. */
  const RetryStep: int := 4000
  /** `retries` stops growing at this value. */
  const RetryCap: nat := 5
  /** A call older than this many milliseconds gives up with `[]`. */
  const GiveUp: int := 30000

  /** The worker `_.sample` picked; any worker may be picked. */
  type WorkerId = nat

  /** One `send` of the call's envelope to a worker at time `at`. */
  datatype Dispatch = Dispatch(worker: WorkerId, envelope: Envelope, at: int)

  /** One facade call in flight. */
  datatype Call = Call(envelope: Envelope, start: int, retries: nat,
                       sent: seq<Dispatch>, polling: bool, result: Option<Items>)
  {
    function Id(): Id { envelope.id }
  }

  /**
   The facts every call keeps: `retries` counts the sends, each send is the
   call's own envelope, the i-th re-send went out later than `i * RetryStep`
   after the start, and a call that stopped polling has resolved.
   */
  predicate Valid(c: Call) {
    && 1 <= c.retries <= RetryCap
    && |c.sent| == c.retries
    && c.sent[0].at == c.start
    && (forall i :: 0 <= i < |c.sent| ==> c.sent[i].envelope == c.envelope)
    && (forall i :: 1 <= i < |c.sent| ==> c.sent[i].at - c.start > RetryStep * i)
    && (!c.polling ==> c.result.Some?)
  }

  /** A facade operation: builds the envelope under a fresh id and sends it once. */
  function Begin(r: Request, id: Id, now: int, w: WorkerId): (c: Call)
    ensures Valid(c) && c.Id() == id && c.polling && c.result == None
    ensures c.sent == [Dispatch(w, MakeEnvelope(r, id), now)]
  {
    Call(MakeEnvelope(r, id), now, 1, [Dispatch(w, MakeEnvelope(r, id), now)], true, None)
  }

  /** Resolving the promise: only the first value counts. */
  function Settle(c: Call, v: Items): (c': Call)
    ensures c'.result == if c.result.Some? then c.result else Some(v)
    ensures c' == c.(result := c'.result)
  {
    if c.result.None? then c.(result := Some(v)) else c
  }

  predicate RetryDue(c: Call, now: int) {
    now - c.start > RetryStep * c.retries && c.retries < RetryCap
  }

  predicate TimedOut(c: Call, now: int) {
    now - c.start > GiveUp
  }

  datatype State = State(table: Table, call: Call)

  /** One run of the polling callback at time `now`; `w` is the worker a retry goes to. */
  function Tick(c: Call, t: Table, now: int, w: WorkerId): (s: State)
    // the call keeps its invariant
    ensures Valid(c) ==> Valid(s.call)
    ensures s.call.envelope == c.envelope && s.call.start == c.start
    // a retry appends exactly one send of the same envelope
    ensures s.call.sent == c.sent + (if c.polling && RetryDue(c, now) then [Dispatch(w, c.envelope, now)] else [])
    // a stopped call is left alone
    ensures !c.polling ==> s == State(t, c)
    // the first resolution wins
    ensures c.result.Some? ==> s.call.result == c.result
    ensures c.polling && c.result.None? ==>
      s.call.result == (if !RetryDue(c, now) && TimedOut(c, now) then Some([])
                        else if c.Id() in t then Some(t[c.Id()].items)
                        else None)
    // polling stops exactly when the call's own entry is present
    ensures c.polling ==> (s.call.polling <==> c.Id() !in t)
    // only the call's own entry is touched, and only to mark it finished
    ensures s.table.Keys == t.Keys
    ensures forall k :: k in t && k != c.Id() ==> s.table[k] == t[k]
    ensures c.Id() in t ==> s.table[c.Id()] == t[c.Id()].(finished := c.polling || t[c.Id()].finished)
  {
    if !c.polling then State(t, c)
    else
      var c1 :=
        if RetryDue(c, now) then
          c.(retries := c.retries + 1, sent := c.sent + [Dispatch(w, c.envelope, now)])
        else if TimedOut(c, now) then Settle(c, [])
        else c;
      if c.Id() in t then
        State(MarkFinished(t, c.Id()), Settle(c1, t[c.Id()].items).(polling := false))
      else State(t, c1)
  }

  /** What a tick makes of the call depends on the table only through the call's own entry. */
  lemma TickIsolated(c: Call, t1: Table, t2: Table, now: int, w: WorkerId)
    requires c.Id() in t1 <==> c.Id() in t2
    requires c.Id() in t1 ==> t1[c.Id()] == t2[c.Id()]
    ensures Tick(c, t1, now, w).call == Tick(c, t2, now, w).call
  {
  }

  /** The events the call's world sees: a reply, a cleanup pass, or one poll of the call. */
  datatype Event =
    | Reply(id: Id, items: Items, at: int)
    | Cleanup(at: int)
    | Poll(at: int, worker: WorkerId)

  function Apply(s: State, e: Event): (s': State)
    ensures !e.Poll? ==> s'.call == s.call
  {
    match e
    case Reply(id, items, at) => State(Ingest(s.table, id, items, at), s.call)
    case Cleanup(at) => State(Sweep(s.table, at), s.call)
    case Poll(at, w) => Tick(s.call, s.table, at, w)
  }

  /** The state after the events `es`, in order. */
  function Run(s: State, es: seq<Event>): State
    decreases |es|
  {
    if |es| == 0 then s else Run(Apply(s, es[0]), es[1..])
  }

  lemma {:induction false} RunAppend(s: State, a: seq<Event>, b: seq<Event>)
    ensures Run(s, a + b) == Run(Run(s, a), b)
    decreases |a|
  {
    if |a| > 0 {
      assert (a + b)[0] == a[0];
      assert (a + b)[1..] == a[1..] + b;
      RunAppend(Apply(s, a[0]), a[1..], b);
    } else {
      assert a + b == b;
    }
  }

  /** Whatever happens, a call keeps its invariant; so it never sends more than five times. */
  lemma {:induction false} RunValid(s: State, es: seq<Event>)
    requires Valid(s.call)
    ensures Valid(Run(s, es).call)
    ensures Run(s, es).call.envelope == s.call.envelope
    ensures |Run(s, es).call.sent| <= RetryCap
    ensures s.call.sent <= Run(s, es).call.sent
    decreases |es|
  {
    if |es| > 0 {
      RunValid(Apply(s, es[0]), es[1..]);
    }
  }

  /** Once resolved, a call's result never changes. */
  lemma {:induction false} RunKeepsResult(s: State, es: seq<Event>)
    requires s.call.result.Some?
    ensures Run(s, es).call.result == s.call.result
    decreases |es|
  {
    if |es| > 0 {
      RunKeepsResult(Apply(s, es[0]), es[1..]);
    }
  }

  /** The number of polls in `es` later than `deadline`. */
  function LatePolls(es: seq<Event>, deadline: int): nat
    decreases |es|
  {
    if |es| == 0 then 0
    else (if es[0].Poll? && es[0].at > deadline then 1 else 0) + LatePolls(es[1..], deadline)
  }

  /**
   Bounded wait: however the workers and the table behave, a call has
   resolved once it has been polled `6 - retries` times (so at most five
   times) after its 30-second deadline.
   */
  lemma {:induction false} BoundedWait(s: State, es: seq<Event>)
    requires Valid(s.call)
    requires LatePolls(es, s.call.start + GiveUp) >= RetryCap + 1 - s.call.retries
    ensures Run(s, es).call.result.Some?
    decreases |es|
  {
    var c := s.call;
    if c.result.Some? {
      RunKeepsResult(s, es);
    } else {
      var e := es[0];
      var s1 := Apply(s, e);
      if e.Poll? && e.at > c.start + GiveUp {
        if s1.call.result.Some? {
          RunKeepsResult(s1, es[1..]);
        } else {
          assert c.polling && RetryDue(c, e.at);
          BoundedWait(s1, es[1..]);
        }
      } else {
        BoundedWait(s1, es[1..]);
      }
    }
  }

  /** Once `retries` has reached five, the first poll after the deadline resolves. */
  lemma TimeoutAfterLastRetry(c: Call, t: Table, now: int, w: WorkerId)
    requires Valid(c) && c.retries == RetryCap && c.polling
    requires TimedOut(c, now)
    ensures Tick(c, t, now, w).call.result.Some?
    ensures c.result.None? ==> Tick(c, t, now, w).call.result == Some([])
  {
  }

  /** `Poll` events at every millisecond from `lo` up to, not including, `hi`. */
  function Polls(lo: int, hi: int, w: WorkerId): (es: seq<Event>)
    decreases hi - lo
  {
    if lo >= hi then [] else [Poll(lo, w)] + Polls(lo + 1, hi, w)
  }

  lemma {:induction false} PollsSplit(a: int, b: int, c: int, w: WorkerId)
    requires a <= b <= c
    ensures Polls(a, c, w) == Polls(a, b, w) + Polls(b, c, w)
    decreases b - a
  {
    if a < b {
      PollsSplit(a + 1, b, c, w);
    }
  }

  /** Polls at which no retry is due, no timeout is new and no entry is present change nothing. */
  lemma {:induction false} IdlePolls(s: State, lo: int, hi: int, w: WorkerId)
    requires s.call.polling && s.call.Id() !in s.table
    requires hi - 1 - s.call.start <= RetryStep * s.call.retries || s.call.retries >= RetryCap
    requires hi - 1 - s.call.start <= GiveUp || s.call.result.Some?
    ensures Run(s, Polls(lo, hi, w)) == s
    decreases hi - lo
  {
    var es := Polls(lo, hi, w);
    if lo < hi {
      assert es[0] == Poll(lo, w) && es[1..] == Polls(lo + 1, hi, w);
      assert Apply(s, es[0]) == s;
      IdlePolls(s, lo + 1, hi, w);
      assert Run(s, es) == Run(s, Polls(lo + 1, hi, w));
    } else {
      assert es == [];
    }
  }
}

=== FILE: wait_scenarios.dfy ===
/**
 Timelines of one facade call under a 1 ms polling tick, each derived from
 the general lemmas about the wait loop.
 */
module WaitScenarios {
  import opened Optional
  import opened Envelopes
  import opened ResultTable
  import opened WaitLoop

  lemma RunPair(s: State, e1: Event, e2: Event)
    ensures Run(s, [e1, e2]) == Apply(Apply(s, e1), e2)
  {
    var s1 := Apply(s, e1);
    assert [e1, e2][0] == e1 && [e1, e2][1..] == [e2];
    assert Run(s, [e1, e2]) == Run(s1, [e2]);
    assert [e2][0] == e2 && [e2][1..] == [];
    assert Run(s1, [e2]) == Run(Apply(s1, e2), []);
  }

  /** Idle polls over `[lo, hi)` followed by a re-send at `hi`. */
  lemma {:induction false} IdleThenRetry(s: State, lo: int, hi: int, w: WorkerId)
    requires lo <= hi
    requires s.call.polling && s.call.result.None? && s.call.Id() !in s.table
    requires hi - 1 - s.call.start <= RetryStep * s.call.retries
    requires hi - 1 - s.call.start <= GiveUp
    requires RetryDue(s.call, hi)
    ensures Run(s, Polls(lo, hi + 1, w)) ==
      State(s.table, s.call.(retries := s.call.retries + 1,
                             sent := s.call.sent + [Dispatch(w, s.call.envelope, hi)]))
  {
    PollsSplit(lo, hi, hi + 1, w);
    assert Polls(hi, hi + 1, w) == [Poll(hi, w)];
    IdlePolls(s, lo, hi, w);
    RunAppend(s, Polls(lo, hi, w), [Poll(hi, w)]);
    assert Run(s, [Poll(hi, w)]) == Apply(s, Poll(hi, w));
  }

  /** A worker answers 50 ms after dispatch at `t0`: the call resolves with its items and never re-sends. */
  lemma ReplyBeforeFirstRetry(t0: int, r: Request, id: Id, t: Table, items: Items, w: WorkerId)
    requires id !in t
    ensures var s := Run(State(t, Begin(r, id, t0, w)), Polls(t0, t0 + 50, w) + [Reply(id, items, t0 + 50), Poll(t0 + 50, w)]);
            && s.call.result == Some(items)
            && |s.call.sent| == 1
            && !s.call.polling
            && id in s.table && s.table[id] == Entry(items, t0 + 50, true)
  {
    var s0 := State(t, Begin(r, id, t0, w));
    IdlePolls(s0, t0, t0 + 50, w);
    RunAppend(s0, Polls(t0, t0 + 50, w), [Reply(id, items, t0 + 50), Poll(t0 + 50, w)]);
    RunPair(s0, Reply(id, items, t0 + 50), Poll(t0 + 50, w));
  }

  /** Idle polls over `[lo, hi)` and a re-send at `hi`, inside a longer run of polls up to `end`. */
  lemma RetrySegment(s: State, lo: int, hi: int, end: int, w: WorkerId)
    requires lo <= hi < end
    requires s.call.polling && s.call.result.None? && s.call.Id() !in s.table
    requires hi - 1 - s.call.start <= RetryStep * s.call.retries
    requires hi - 1 - s.call.start <= GiveUp
    requires RetryDue(s.call, hi)
    ensures Run(s, Polls(lo, end, w)) ==
      Run(State(s.table, s.call.(retries := s.call.retries + 1,
                                 sent := s.call.sent + [Dispatch(w, s.call.envelope, hi)])),
          Polls(hi + 1, end, w))
  {
    PollsSplit(lo, hi + 1, end, w);
    IdleThenRetry(s, lo, hi, w);
    RunAppend(s, Polls(lo, hi + 1, w), Polls(hi + 1, end, w));
  }

  /** With no reply, a call that has sent `k` times (1 or 3) re-sends 4000 * k + 1 and 4000 * (k + 1) + 1 ms after dispatch. */
  lemma TwoRetries(t0: int, c: Call, t: Table, lo: int, end: int, w: WorkerId)
    requires c.polling && c.result.None? && c.start == t0 && c.Id() !in t
    requires c.retries == 1 || c.retries == 3
    requires lo <= t0 + RetryStep * c.retries + 1 && t0 + RetryStep * (c.retries + 1) + 1 < end
    ensures var k := c.retries;
      Run(State(t, c), Polls(lo, end, w)) ==
      Run(State(t, c.(retries := k + 2, sent := c.sent + [Dispatch(w, c.envelope, t0 + RetryStep * k + 1),
                                                          Dispatch(w, c.envelope, t0 + RetryStep * (k + 1) + 1)])),
          Polls(t0 + RetryStep * (k + 1) + 2, end, w))
  {
    var k := c.retries;
    var e := c.envelope;
    var hi1 := t0 + RetryStep * k + 1;
    var hi2 := t0 + RetryStep * (k + 1) + 1;
    RetrySegment(State(t, c), lo, hi1, end, w);
    var c1 := c.(retries := k + 1, sent := c.sent + [Dispatch(w, e, hi1)]);
    RetrySegment(State(t, c1), hi1 + 1, hi2, end, w);
    assert c1.sent + [Dispatch(w, e, hi2)] == c.sent + [Dispatch(w, e, hi1), Dispatch(w, e, hi2)];
  }

  /** With no reply, the four re-sends go out 4001, 8001, 12001 and 16001 ms after dispatch. */
  lemma FourRetries(t0: int, c: Call, t: Table, w: WorkerId)
    requires c.polling && c.result.None? && c.retries == 1 && c.start == t0 && c.Id() !in t
    ensures Run(State(t, c), Polls(t0, t0 + 30002, w)) ==
      Run(State(t, c.(retries := 5, sent := c.sent + [Dispatch(w, c.envelope, t0 + 4001),
                                                      Dispatch(w, c.envelope, t0 + 8001),
                                                      Dispatch(w, c.envelope, t0 + 12001),
                                                      Dispatch(w, c.envelope, t0 + 16001)])),
          Polls(t0 + 16002, t0 + 30002, w))
  {
    var e := c.envelope;
    var end := t0 + 30002;
    var c2 := c.(retries := 3, sent := c.sent + [Dispatch(w, e, t0 + 4001), Dispatch(w, e, t0 + 8001)]);
    var c4 := c2.(retries := 5, sent := c2.sent + [Dispatch(w, e, t0 + 12001), Dispatch(w, e, t0 + 16001)]);
    assert Run(State(t, c), Polls(t0, end, w)) == Run(State(t, c2), Polls(t0 + 8002, end, w)) by {
      TwoRetries(t0, c, t, t0, end, w);
    }
    assert Run(State(t, c2), Polls(t0 + 8002, end, w)) == Run(State(t, c4), Polls(t0 + 16002, end, w)) by {
      TwoRetries(t0, c2, t, t0 + 8002, end, w);
    }
    assert c4.sent == c.sent + [Dispatch(w, e, t0 + 4001), Dispatch(w, e, t0 + 8001),
                                Dispatch(w, e, t0 + 12001), Dispatch(w, e, t0 + 16001)];
  }

  /**
   No worker ever answers a call dispatched at `t0`: the call re-sends
   4001, 8001, 12001 and 16001 ms later and resolves with `[]` 30001 ms
   after dispatch, having sent exactly five times.
   */
  lemma NoReplyGivesUp(t0: int, r: Request, id: Id, t: Table, w: WorkerId)
    requires id !in t
    ensures var s := Run(State(t, Begin(r, id, t0, w)), Polls(t0, t0 + 30002, w));
            && s.call.result == Some([])
            && |s.call.sent| == 5
            && s.call.sent[1].at == t0 + 4001 && s.call.sent[2].at == t0 + 8001
            && s.call.sent[3].at == t0 + 12001 && s.call.sent[4].at == t0 + 16001
            && s.table == t
  {
    var c := Begin(r, id, t0, w);
    var e := c.envelope;
    var c4 := c.(retries := 5, sent := c.sent + [Dispatch(w, e, t0 + 4001), Dispatch(w, e, t0 + 8001),
                                                 Dispatch(w, e, t0 + 12001), Dispatch(w, e, t0 + 16001)]);
    var s4 := State(t, c4);
    assert Run(State(t, c), Polls(t0, t0 + 30002, w)) == Run(s4, Polls(t0 + 16002, t0 + 30002, w)) by {
      FourRetries(t0, c, t, w);
    }
    assert Run(s4, Polls(t0 + 16002, t0 + 30002, w)) == Apply(s4, Poll(t0 + 30001, w)) by {
      PollsSplit(t0 + 16002, t0 + 30001, t0 + 30002, w);
      assert Polls(t0 + 30001, t0 + 30002, w) == [Poll(t0 + 30001, w)];
      IdlePolls(s4, t0 + 16002, t0 + 30001, w);
      RunAppend(s4, Polls(t0 + 16002, t0 + 30001, w), [Poll(t0 + 30001, w)]);
      assert Run(s4, [Poll(t0 + 30001, w)]) == Apply(s4, Poll(t0 + 30001, w));
    }
    var s5 := Apply(s4, Poll(t0 + 30001, w));
    assert s5.call.result == Some([]) && s5.table == t && s5.call.sent == c4.sent;
  }

  /** With no reply, polls up to `end` in (4001, 8001] ms after dispatch see exactly one re-send, at 4001 ms. */
  lemma OneRetry(t0: int, c: Call, t: Table, end: int, w: WorkerId)
    requires c.polling && c.result.None? && c.retries == 1 && c.start == t0 && c.Id() !in t
    requires t0 + 4002 <= end <= t0 + 8001
    ensures Run(State(t, c), Polls(t0, end, w))
         == State(t, c.(retries := 2, sent := c.sent + [Dispatch(w, c.envelope, t0 + 4001)]))
  {
    var s0 := State(t, c);
    var s1 := State(t, c.(retries := 2, sent := c.sent + [Dispatch(w, c.envelope, t0 + 4001)]));
    PollsSplit(t0, t0 + 4002, end, w);
    IdleThenRetry(s0, t0, t0 + 4001, w);
    RunAppend(s0, Polls(t0, t0 + 4002, w), Polls(t0 + 4002, end, w));
    IdlePolls(s1, t0 + 4002, end, w);
  }

  /**
   A worker answers 4500 ms after dispatch, after the first re-send at
   4001 ms: the call resolves with the reply's items, having sent twice.
   */
  lemma ReplyAfterOneRetry(t0: int, r: Request, id: Id, t: Table, items: Items, w: WorkerId)
    requires id !in t
    ensures var s := Run(State(t, Begin(r, id, t0, w)), Polls(t0, t0 + 4500, w) + [Reply(id, items, t0 + 4500), Poll(t0 + 4500, w)]);
            && s.call.result == Some(items)
            && |s.call.sent| == 2
            && s.call.sent[1].at == t0 + 4001
  {
    var c := Begin(r, id, t0, w);
    var s0 := State(t, c);
    var s1 := State(t, c.(retries := 2, sent := c.sent + [Dispatch(w, c.envelope, t0 + 4001)]));
    var tail := [Reply(id, items, t0 + 4500), Poll(t0 + 4500, w)];
    assert Run(s0, Polls(t0, t0 + 4500, w) + tail) == Run(s1, tail) by {
      OneRetry(t0, c, t, t0 + 4500, w);
      RunAppend(s0, Polls(t0, t0 + 4500, w), tail);
    }
    RunPair(s1, Reply(id, items, t0 + 4500), Poll(t0 + 4500, w));
    var s2 := Apply(s1, Reply(id, items, t0 + 4500));
    assert s2.call == s1.call && id in s2.table && s2.table[id].items == items;
    var s3 := Apply(s2, Poll(t0 + 4500, w));
    assert s3.call.result == Some(items) && s3.call.sent == s1.call.sent;
  }


  /**
   Two calls with ids `a` and `b` in flight: a reply for `b` arriving first
   does not resolve the call waiting on `a`; `a`'s own reply does.
   */
  lemma OtherReplyDoesNotResolve(t0: int, r: Request, a: Id, b: Id, t: Table, itemsA: Items, itemsB: Items, w: WorkerId)
    requires a != b && a !in t
    ensures var s := Run(State(t, Begin(r, a, t0, w)), [Reply(b, itemsB, t0 + 10), Poll(t0 + 10, w)]);
            && s.call.result == None && s.call.polling
            && Run(s, [Reply(a, itemsA, t0 + 20), Poll(t0 + 20, w)]).call.result == Some(itemsA)
  {
    var s0 := State(t, Begin(r, a, t0, w));
    RunPair(s0, Reply(b, itemsB, t0 + 10), Poll(t0 + 10, w));
    var s := Run(s0, [Reply(b, itemsB, t0 + 10), Poll(t0 + 10, w)]);
    RunPair(s, Reply(a, itemsA, t0 + 20), Poll(t0 + 20, w));
  }
}
